=== FILE: README.md ===
# nw-ssb window helper and app wizard, modelled in Dafny

This project models the two pieces of sequential logic in nw-ssb, a
single-site-browser shell for node-webkit.

- **The window decorator** (`app/window-helper.js`). It adds convenience
  behaviour to a host window:
  - a cancellable `closing` event layered over the host's `close`;
  - layout persistence (`persistLayout`), which tracks the window mode and
    saves and restores its geometry across sessions;
  - close-to-tray (`minimizeOnClose`, `closeWithoutMinimizing`);
  - hide-on-minimize;
  - the tray-icon toggle (`attachTrayIcon`).

  A window is an immutable `Window.Win` record. It holds the marker flags
  (`__closingEventAdded`, `__trayIcon`, ...) and the state the installed
  listeners keep. Host events (`Window.Event`) and helper calls
  (`Window.Call`) map one record to the next. Each also returns the list of
  requests made of the host (`Host.Effect`): maximize, resizeTo/moveTo,
  close(true), minimize, the `store` and `ready` callbacks, and so on.
- **The make-app wizard** (`app/make-app.js`). A FIFO queue of questions is
  drained one answer at a time. Each answer handler may reject the answer,
  record it in `spec` or `platformOptions`, or append more questions. When
  the queue is empty, `createApp` runs. The model replaces readline with a
  list of answer lines. The platform and `HOME` are parameters.
  `Wizard.Drain` is the queue-driven run. `Wizard.Walk` asks a fixed
  schedule of questions in order. The two are proved to agree.

Modules: `Host` (shared vocabulary), `Layout` (the persistLayout state
machine), `LayoutProperties`, `Window`, `WindowProperties`, `Wizard`,
`WizardProperties`.

Three behaviours of the code are easy to misread, and the model keeps them
as written:
- An empty name or URL does not re-ask the question. The handler reports an
  error and the run stops (make-app.js:26-27, 35-36, 143-146).
- The two tray follow-up questions are appended whatever the tray answer
  was, including "no" (make-app.js:52-74).
- A loaded `winState.mode` is copied into `currWinMode` verbatim, so it may
  be any string (window-helper.js:113). It is kept as
  `Layout.Unrecognized(name)`. Such a window restores the saved geometry at
  start-up but never snapshots it again until it becomes normal.

## Model

| member | source | states |
|---|---|---|
| Layout.ModeOf | app/window-helper.js:113-114 | reading a mode string gives a mode whose name is that string, and it is an unrecognized mode exactly when the string is none of "normal", "maximized", "minimized" |
| Layout.ModeNameRoundTrip | app/window-helper.js:113 | reading back the name of a known mode gives that mode, so `ModeOf` inverts `ModeName`; the write-then-read across sessions is `LayoutProperties.SessionRoundTrip` |
| Layout.RestoreEffects | app/window-helper.js:160-169 | restoring asks for resizeTo(saved width, saved height) first, then moveTo(saved x, saved y) |
| Layout.Dump | app/window-helper.js:133-158 | the saved mode is "maximized" exactly when the window is maximized and "normal" otherwise, never "minimized"; the saved x/y/width/height become the live geometry only in normal mode and are kept unchanged in every other mode |
| Layout.Init | app/window-helper.js:109-131 | with nothing loaded: normal mode and a snapshot of the live geometry; with a loaded "maximized" record: only maximize is requested; otherwise resizeTo then moveTo with the saved values; the loaded record becomes the saved state; `ready`, when given, is called exactly once and last |
| Layout.AfterMaximize | app/window-helper.js:178-181 | 'maximize' sets the mode to maximized and raises the maximization flag, leaving the saved record alone |
| Layout.AfterUnmaximize | app/window-helper.js:183-186 | 'unmaximize' sets the mode to normal and reapplies the saved geometry |
| Layout.AfterMinimize | app/window-helper.js:188-190 | 'minimize' sets the mode to minimized and changes nothing else |
| Layout.AfterRestore | app/window-helper.js:192-194 | 'restore' sets the mode to normal and changes nothing else |
| Layout.AfterResizeSettled | app/window-helper.js:203-227 | the first settled resize after a maximize clears the flag and keeps the mode; later ones drop a maximized mode to normal; a snapshot is taken in every case |
| Layout.AfterClosing | app/window-helper.js:171-174 | the closing listener snapshots and hands exactly that record to `store` |
| LayoutProperties.SessionRoundTrip | app/window-helper.js:109-174 | a record stored on closing brings the next session back maximized if the window closed maximized and normal otherwise; a window closed in normal mode is resized and moved back to the geometry it had |
| LayoutProperties.MaximizeKeepsNormalGeometry | app/window-helper.js:206-208 | after maximize, the resize the maximize itself causes is ignored, and closing stores mode "maximized" with the geometry from before the maximize |
| LayoutProperties.ResizeAfterMaximizeIsNormal | app/window-helper.js:209-213 | a second settled resize of a maximized window makes it normal and records the live geometry |
| LayoutProperties.UnmaximizeReturnsToSnapshot | app/window-helper.js:183-186 | maximize, then a settled resize, then unmaximize puts a normal window back at its last normal snapshot |
| LayoutProperties.RestoredClosesWithLiveGeometry | app/window-helper.js:139-194 | minimize then restore leaves a normal window, so closing stores mode "normal" with the live geometry |
| LayoutProperties.MinimizedClosesAsNormal | app/window-helper.js:145-151 | closing a minimized window stores mode "normal" with the last normal geometry |
| Window.Notify | app/window-helper.js:29-33 | emitting 'closing' is prevented exactly when some listener calls the veto callback; the layout listener, if present, leaves a snapshot of the live geometry; neither a forced close nor 'closingPrevented' comes from the listeners |
| Window.NotifyOne | app/window-helper.js:328-334 | one listener: the layout listener snapshots and stores; the minimize-on-close listener vetoes and minimizes exactly when the dont-minimize flag is unset; application listeners veto as they choose |
| Window.Close | app/window-helper.js:29-39 | a host 'close' force-closes the window exactly when the closing event is installed and no listener vetoed, and emits 'closingPrevented' exactly when one did, in either case after the listeners' own requests; the layout becomes the listeners' snapshot; a prevented close drops the dont-minimize flag exactly when a 'closingPrevented' clearer was pending, and every helper stays installed; without addClosingEvent the code does nothing |
| Window.InstallClosingEvent | app/window-helper.js:27-42 | addClosingEvent sets the marker and is a no-op once it is set |
| Window.Lowered | app/window-helper.js:273-278 | lowering clears `up` and unchecks the menu item when there is one |
| Window.Raised | app/window-helper.js:280-285 | raising sets `up` and checks the menu item when there is one |
| Window.Track | app/window-helper.js:305-306 | 'minimize' lowers and 'restore' raises every toggle that listens to the window, keeping its icon and its menu item, and leaves the others alone |
| Window.Flipped | app/window-helper.js:288-298 | one run of a toggle flips its `up`, leaves the check mark equal to it, and keeps its icon and whether it follows the window |
| Window.Click | app/window-helper.js:288-303 | a click on a tray icon runs exactly the toggles registered on that icon, and a menu-item click exactly the toggle that has the menu item; each one run flips its `up` and keeps its check mark equal to it, the others are untouched; with one toggle it requests minimize when up and show then restore otherwise, and a click that reaches no toggle requests nothing |
| Window.AttachTray | app/window-helper.js:263-311 | as written: with a checkbox menu item it attaches once, on the given icon, and mirrors `currentlyVisible` in `up` and `checked`; with no item or a non-checkbox one it registers the toggle on the icon and then throws, leaving the guard flag unset; nothing else changes |
| Window.AttachTrayGuarded | app/window-helper.js:268-271 | corrected attach: never throws, always sets the guard flag, and registers a toggle that follows the window with the menu item left alone |
| Window.WindowLoaded | app/window-helper.js:198-199 | the pending once('loaded') hook attaches the resize handler and is used up; without it 'loaded' changes nothing |
| Window.WindowResizeSettled | app/window-helper.js:199-227 | a settled resize reaches the layout machine only once the resize handler is attached; before that it changes nothing; it never touches anything but the layout |
| Window.WindowMinimized | app/window-helper.js:305-319 | 'minimize' puts the layout in minimized mode, lowers every toggle that follows the window, and requests hide, its only possible effect, exactly when hideOnMinimize was installed |
| Window.InstallLayout | app/window-helper.js:95-243 | the first persistLayout installs the closing event, runs the layout start-up and requests its effects, leaves 'loaded' pending with no resize handler yet, and appends the layout's 'closing' listener; a repeat call changes nothing; no other field changes |
| Window.InstallHideOnMinimize | app/window-helper.js:314-321 | hideOnMinimize sets its marker and changes nothing else; a repeat call changes nothing |
| Window.InstallMinimizeOnClose | app/window-helper.js:323-342 | the first minimizeOnClose installs the closing event and appends the minimize-instead 'closing' listener; a repeat call changes nothing; no other field changes |
| Window.StartCloseWithoutMinimizing | app/window-helper.js:344-352 | closeWithoutMinimizing sets the dont-minimize flag, leaves its 'closingPrevented' clearer pending, requests a close and changes nothing else |
| Window.AddClosingListener | app/window-helper.js:31-33 | an application 'closing' listener is appended after those already registered, and nothing else changes |
| Window.Invoke | app/window-helper.js:263-303 | of all helper calls only attachTrayIcon can throw |
| WindowProperties.ApplyKeepsValid | app/window-helper.js:178-194 | every host event keeps the marker flags in step with the installed listeners, and keeps every check mark equal to its toggle's `up` |
| WindowProperties.InvokeKeepsValid | app/window-helper.js:27-352 | every helper call keeps the same invariant, including an attach that throws |
| WindowProperties.InstallersIdempotent | app/window-helper.js:27-342 | addClosingEvent, persistLayout, attachTrayIcon (once it has succeeded), hideOnMinimize and minimizeOnClose install at most once: a repeat call with any arguments changes nothing and requests nothing |
| WindowProperties.NotifyStores | app/window-helper.js:235-238 | when persistLayout is installed, every closing attempt stores a snapshot, vetoed or not |
| WindowProperties.NotifyMinimizes | app/window-helper.js:328-334 | a closing attempt requests minimize exactly when minimizeOnClose is installed and the dont-minimize flag is unset |
| WindowProperties.CloseProtocol | app/window-helper.js:29-38 | close happens iff nobody vetoed, otherwise 'closingPrevented'; with layout persistence installed a snapshot is stored on every attempt and its mode is never "minimized" |
| WindowProperties.MinimizeOnCloseVetoes | app/window-helper.js:323-341 | with minimizeOnClose installed and the flag unset, a close minimizes instead and is prevented |
| WindowProperties.MinimizeOnCloseRepeats | app/window-helper.js:323-341 | the minimize-on-close listener stays installed after a vetoed close, so the next close minimizes and is prevented again |
| WindowProperties.CloseWithoutMinimizingProtocol | app/window-helper.js:344-352 | closeWithoutMinimizing sets the flag and requests a close; in the close that follows nothing minimizes; the window closes unless application code vetoes; the flag is cleared exactly when the close was prevented |
| WindowProperties.MinimizeHidesIffInstalled | app/window-helper.js:314-321 | 'minimize' hides the window exactly when hideOnMinimize was installed |
| WindowProperties.ClickRequests | app/window-helper.js:288-301 | a click requests exactly the effects of the toggles it reaches, each in turn in registration order: minimize for one believing the window up, show then restore otherwise |
| Window.Reached | app/window-helper.js:301-302 | the toggles a click reaches are exactly those of the clicked icon, or the one with the menu item, each as often as it was registered |
| WindowProperties.ClickTwice | app/window-helper.js:288-303 | two identical clicks, on a tray icon or on the menu item, give back the window record they started from |
| WindowProperties.ClickToggles | app/window-helper.js:288-303 | with the tray attached and its toggle the only one (no toggle left behind by a failed attach), a click on its icon or menu item minimizes a window believed up and shows and restores one believed down, and the check mark follows; a click elsewhere changes nothing |
| WindowProperties.ResizeNeedsLoaded | app/window-helper.js:198-230 | after persistLayout, settled resizes are ignored until the window's 'loaded' event and handled after it |
| WindowProperties.AttachTrayWithoutCheckboxThrows | app/window-helper.js:268-303 | attaching without a checkbox item throws each time; two attempts on one icon leave two toggles and no guard flag, one click on the icon then minimizes twice, and no menu item is wired |
| WindowProperties.StrayToggleStaysOnItsIcon | app/window-helper.js:263-303 | after a failed attach on one icon and a successful one on another, each icon's click runs only its own toggle and the menu item runs only the successful one |
| WindowProperties.AttachTrayGuardedSound | app/window-helper.js:263-311 | the corrected attach keeps the invariant, leaves exactly one toggle following the window, and is idempotent |
| Wizard.Handle | app/make-app.js:23-95 | an answer is rejected exactly when it is empty for the name or URL question; the tray question, and only it, appends the minimize-to-tray and start-hidden questions whatever the answer; an accepted answer changes nothing outside its own key; and, starting from an absent key, it leaves the key as `Records` describes: title and URL verbatim; icon only when non-empty; use-tray-icon, minimize-to-tray and minimize-on-close true only for exactly "y" or "yes"; persist-window-appearance true unless exactly "n" or "no"; start-hidden false only for exactly "n" or "no"; categories verbatim, even when empty |
| Wizard.SpecPath | app/make-app.js:114-115 | the spec file is HOME, then "/.nw-ssb/", then the title, then ".json" |
| Wizard.ShortcutPath | app/make-app.js:116 | the shortcut is HOME, then "/.local/share/applications/", then the title, then ".desktop" |
| Wizard.CreateApp | app/make-app.js:98-116 | createApp finishes the run; it writes the two files only on Linux, and on other platforms it only apologises |
| Wizard.Drain | app/make-app.js:143-155 | the queue driver asks at most one question per answer; when the answers run out it stops waiting on the question it just asked; a failure stops at a question whose empty answer was rejected |
| Wizard.Walk | app/make-app.js:143-155 | the reference run over a fixed schedule: the questions asked are a prefix of the schedule; it reaches createApp only after asking the whole schedule with no answer rejected; it stops at the first rejected answer |
| WizardProperties.DrainFollowsSchedule | app/make-app.js:52-74 | draining the live queue, with follow-ups appended when the tray question is answered, gives the same run as walking the rest of the schedule |
| WizardProperties.WizardFollowsSchedule | app/make-app.js:143-150 | the whole wizard is the walk over the schedule: the initial questions, then categories on Linux, then the two tray follow-ups |
| WizardProperties.QuestionOrder | app/make-app.js:105-111 | the questions are asked strictly in schedule order, and on Linux that order is name, URL, icon, tray, close button, persist, categories, minimize to tray, start hidden |
| WizardProperties.WizardOutcome | app/make-app.js:26-36 | the run fails exactly when the name is empty or the URL is empty; it has then asked at most those two questions and never reaches createApp; it reaches createApp exactly when every scheduled question got an answer and the name and URL are non-empty |
| WizardProperties.WalkRecords | app/make-app.js:25-110 | walking distinct, unanswered questions records every accepted answer under its own key |
| WizardProperties.FinishedSpec | app/make-app.js:29-116 | the contents of `spec` and `platformOptions` key by key after a finished run, by answer position, and on Linux the files are named after HOME and the title answer |
| WizardProperties.TrayAnswerKeepsQuestions | app/make-app.js:52-74 | changing the tray answer changes none of the questions asked |
| WizardProperties.PathsDetermineTitle | app/make-app.js:114-116 | two titles give the same spec path, or the same shortcut path, only if they are equal |
| Wizard.Transcript | app/make-app.js:148-149 | the prompts written are those of the questions asked, one per question, in order |
| WizardProperties.PromptInjective | app/make-app.js:24-106 | no two questions share a prompt text |
| WizardProperties.TranscriptDeterminesQuestions | app/make-app.js:148-149 | two runs that write the same prompts asked the same questions in the same order |
| WizardProperties.FinishedLinuxTranscript | app/make-app.js:24-106 | a finished Linux run writes the prompts for name, URL, icon, tray, close button, persistence, categories, minimize to tray and start hidden, in that order and with those exact texts |

## Left out

- Prompting and output: readline, stdin/stdout, `rl.write`, `console.error` and `rl.close`. Answers are a list of lines. `Wizard.Transcript` gives the prompt texts a run writes, but nothing is printed.
- File-system work in `createApp`: `existsSync`, `mkdirSync`, `writeFileSync` and the caught exception. The run ends in `Created` with the two paths it would write.
- The JSON text of the spec file and the text of the `.desktop` entry.
- `path.join` normalisation. The paths are plain concatenation with "/". A HOME with a trailing slash or ".." segments, an empty HOME (which `path.join` drops, giving the relative ".nw-ssb/<title>.json"), and an unset HOME (a TypeError in the code), are not modelled.
- WizardProperties.PathsDetermineTitle: holds of the concatenated paths only. `path.join` normalises, so in the code two different titles can give one file, for example "a/../b" and "b", or "a//b" and "a/b"; a title without "/" or "." segments is needed for the code's paths to determine it.
- `process.platform` and `process.env.HOME` are the parameters `isLinux` and `home`.
- Timers: the 500 ms `setTimeout` debounce of 'resize' is the single `OnResizeSettled` event. The raw 'resize' events are not modelled.
- Host behaviour: animation, OS frame sizes, and how the host answers a request. Host events are independent inputs: a requested maximize is not assumed to produce a 'maximize' event. For the same reason, `win.close()` in closeWithoutMinimizing is a `RequestClose` effect and the host's 'close' is a separate `OnClose` event.
- Without addClosingEvent, the host's own default handling of 'close' applies. That is outside this code, so the model's `Close` returns no effects.
- Listener order across helpers is kept only for 'closing'. For the other events it cannot matter: the layout listener on 'unmaximize' requests resizeTo then moveTo, but it is the only helper listening to 'unmaximize'; on 'minimize' only the hide listener requests anything; and the toggles' 'minimize'/'restore' listeners only change their own flags.
- Several pending `once('closingPrevented')` clearers are one flag. Deleting `__dontMinimizeOnClose` twice is the same as deleting it once.
- Loaded `winState` records are assumed to carry all four numeric fields. Exceptions thrown by the caller's `load`, `store` or `ready` are not modelled.
- Tray-icon and menu OS objects, apart from the `up` and `checked` booleans and the icon's identity (an integer). The menu item's click reaches the toggle of the one attach that got as far as wiring it; the same menu item handed to several windows is not modelled, nor is the checkbox toggling itself before its click handler runs.
- Layout.Init: the loaded `winState` is treated as a value. In the code it is the caller's own object: every dump writes into it in place, `store` receives that same object each time, and any extra fields it carried (a `deltaHeight` from an older version, say) are kept and stored again. The model keeps only mode, x, y, width and height, so a caller that holds on to or inspects the object it handed to `load` is not described.
- The commented-out `deltaHeight` code, and `Gruntfile.js` (build configuration).
- Window.Apply: its maximize, unmaximize and restore cases only route the event to the layout machine (`Layout.AfterMaximize`, `Layout.AfterUnmaximize`, `Layout.AfterRestore`) and the toggles (`Window.Track`); its own contract states only that no event throws. The other cases are `Window.WindowMinimized`, `Window.WindowLoaded`, `Window.WindowResizeSettled`, `Window.Close` and `Window.Click`.

## Findings

| source | as written | input that shows it | evidently intended | confidence | as-written member | corrected member |
|---|---|---|---|---|---|---|
| app/window-helper.js:268-303 | a missing or non-checkbox `menuItem` is set to null, then `menuItem.click = toggle` dereferences it | `attachTrayIcon(tray, undefined, true)`: the toggle is already on the tray icon when the call throws, the guard flag stays unset, and a second call adds a second toggle, so one click minimizes twice | leave a null menu item alone, as the comment at line 269 says, and finish attaching | high; not executed | WindowProperties.AttachTrayWithoutCheckboxThrows | Window.AttachTrayGuarded |

`Window.Invoke` keeps the as-written `Window.AttachTray`, because that is what the code does when called. `Window.AttachTrayGuarded` has the intended behaviour, and `WindowProperties.AttachTrayGuardedSound` proves its properties.

=== FILE: host.dfy ===
/**
 The vocabulary shared with the host runtime: the window geometry it reports,
 the persisted layout record, and the requests the helper code makes of it.
 The host itself (window chrome, event loop, timers) is not modelled; its
 events are inputs and its API calls are `Effect` values.
 */
module Host {

  datatype Option<T> = None | Some(value: T)

  /** Live window geometry as read from `win.x`, `win.y`, `win.width`, `win.height`. */
  datatype Geometry = Geometry(x: int, y: int, width: int, height: int)

  /** The persisted `winState` record: a mode string plus the last normal geometry. */
  datatype WinState = WinState(mode: string, geometry: Geometry)

  /** A request the helper code makes of the host window, or a callback it invokes. */
  datatype Effect =
    | Maximize                    // win.maximize()
    | Minimize                    // win.minimize()
    | Restore                     // win.restore()
    | Show                        // win.show()
    | Hide                        // win.hide()
    | ResizeTo(width: int, height: int)
    | MoveTo(x: int, y: int)
    | RequestClose                // win.close(): the host answers with a 'close' event
    | ForceClose                  // win.close(true)
    | EmitClosingPrevented        // win.emit('closingPrevented')
    | Store(state: WinState)      // the caller's `store` callback
    | Ready                       // the caller's `ready` callback
}

=== FILE: layout.dfy ===
/**
 The window-layout persistence installed by `persistLayout`: the tracked
 window mode, the "first resize after a maximize" flag and the `winState`
 record that is restored at start-up and handed to `store` on closing.
 Each host event is a pure function from the old state to the new state
 and the effects it requests.
 */
module Layout {
  import opened Host

  /** `currWinMode`. It is copied verbatim from a loaded record, so a mode
      string other than the three the code writes is kept as `Unrecognized`. */
  datatype Mode = Normal | Maximized | Minimized | Unrecognized(name: string)

  predicate Known(name: string) {
    name == "normal" || name == "maximized" || name == "minimized"
  }

  /** The mode string a mode stands for. */
  function ModeName(m: Mode): string {
    match m
    case Normal => "normal"
    case Maximized => "maximized"
    case Minimized => "minimized"
    case Unrecognized(name) => name
  }

  /** Reading `winState.mode` into `currWinMode`. */
  function ModeOf(name: string): (m: Mode)
    ensures ModeName(m) == name
    ensures m.Unrecognized? <==> !Known(name)
  {
    if name == "normal" then Normal
    else if name == "maximized" then Maximized
    else if name == "minimized" then Minimized
    else Unrecognized(name)
  }

  /** `ModeOf` inverts `ModeName`: the mode read from a mode's name is that
      mode, unless it is an unrecognized name that spells a known one. */
  lemma ModeNameRoundTrip(m: Mode)
    requires m.Unrecognized? ==> !Known(m.name)
    ensures ModeOf(ModeName(m)) == m
  {
  }

  datatype State = State(mode: Mode, isMaximizationEvent: bool, saved: WinState)

  datatype Reaction = Reaction(state: State, effects: seq<Effect>)

  /** `restoreWindowState`: resize to the saved size, then move to the saved position. */
  function RestoreEffects(ws: WinState): (e: seq<Effect>)
    ensures |e| == 2
    ensures e[0].ResizeTo? && e[0].width == ws.geometry.width && e[0].height == ws.geometry.height
    ensures e[1].MoveTo? && e[1].x == ws.geometry.x && e[1].y == ws.geometry.y
  {
    [ResizeTo(ws.geometry.width, ws.geometry.height), MoveTo(ws.geometry.x, ws.geometry.y)]
  }

  /** `dumpWindowState`: the saved mode is never "minimized", and the saved
      geometry is replaced by the live one only in normal mode. */
  function Dump(s: State, live: Geometry): (r: State)
    ensures r.mode == s.mode && r.isMaximizationEvent == s.isMaximizationEvent
    ensures r.saved.mode == "maximized" <==> s.mode == Maximized
    ensures r.saved.mode == "normal" <==> s.mode != Maximized
    ensures s.mode == Normal ==> r.saved.geometry == live
    ensures s.mode != Normal ==> r.saved.geometry == s.saved.geometry
  {
    var mode := if s.mode == Maximized then "maximized" else "normal";
    var geometry := if s.mode == Normal then live else s.saved.geometry;
    s.(saved := WinState(mode, geometry))
  }

  /** Taking a second snapshot of the same geometry changes nothing. */
  lemma DumpIdempotent(s: State, live: Geometry)
    ensures Dump(Dump(s, live), live) == Dump(s, live)
  {
  }

  /** `initWindowState`: apply the loaded record (or snapshot the live
      geometry when there is none), then call `ready` if one was given. */
  function Init(loaded: Option<WinState>, live: Geometry, hasReady: bool): (r: Reaction)
    ensures !r.state.isMaximizationEvent
    ensures loaded.None? ==> r.state.mode == Normal && r.state.saved == WinState("normal", live)
    ensures loaded.None? ==> r.effects == (if hasReady then [Ready] else [])
    ensures loaded.Some? ==> r.state.saved == loaded.value
    ensures loaded.Some? ==> r.state.mode == ModeOf(loaded.value.mode)
    ensures loaded.Some? && loaded.value.mode == "maximized" ==>
              |r.effects| == (if hasReady then 2 else 1) && r.effects[0] == Maximize
    ensures loaded.Some? && loaded.value.mode != "maximized" ==>
              |r.effects| == (if hasReady then 3 else 2) && r.effects[..2] == RestoreEffects(loaded.value)
    ensures hasReady ==> r.effects[|r.effects| - 1] == Ready
    ensures Ready in r.effects <==> hasReady
    ensures Ready in r.effects ==> Ready !in r.effects[..|r.effects| - 1]
  {
    var applied :=
      match loaded
      case None => Reaction(State(Normal, false, WinState("normal", live)), [])
      case Some(ws) =>
        var mode := ModeOf(ws.mode);
        Reaction(State(mode, false, ws), if mode == Maximized then [Maximize] else RestoreEffects(ws));
    applied.(effects := applied.effects + if hasReady then [Ready] else [])
  }

  /** The 'maximize' event. */
  function AfterMaximize(s: State): (r: State)
    ensures r.mode == Maximized && r.isMaximizationEvent && r.saved == s.saved
  {
    s.(mode := Maximized, isMaximizationEvent := true)
  }

  /** The 'unmaximize' event: back to normal at the saved geometry. */
  function AfterUnmaximize(s: State): (r: Reaction)
    ensures r.state.mode == Normal
    ensures r.state.isMaximizationEvent == s.isMaximizationEvent && r.state.saved == s.saved
    ensures r.effects == RestoreEffects(s.saved)
  {
    Reaction(s.(mode := Normal), RestoreEffects(s.saved))
  }

  /** The 'minimize' event. */
  function AfterMinimize(s: State): (r: State)
    ensures r.mode == Minimized
    ensures r.isMaximizationEvent == s.isMaximizationEvent && r.saved == s.saved
  {
    s.(mode := Minimized)
  }

  /** The 'restore' event. */
  function AfterRestore(s: State): (r: State)
    ensures r.mode == Normal
    ensures r.isMaximizationEvent == s.isMaximizationEvent && r.saved == s.saved
  {
    s.(mode := Normal)
  }

  /** The debounced 'resize' handler firing: the first one after a maximize
      is ignored, later ones drop a maximized mode to normal; either way a
      snapshot is taken. */
  function AfterResizeSettled(s: State, live: Geometry): (r: State)
    ensures s.isMaximizationEvent ==> r.mode == s.mode && !r.isMaximizationEvent
    ensures !s.isMaximizationEvent && s.mode == Maximized ==> r.mode == Normal
    ensures !s.isMaximizationEvent && s.mode != Maximized ==> r.mode == s.mode
    ensures !s.isMaximizationEvent ==> !r.isMaximizationEvent
    ensures r.saved.mode == "maximized" <==> r.mode == Maximized
    ensures r.saved.mode == "normal" <==> r.mode != Maximized
    ensures r.saved.geometry == if r.mode == Normal then live else s.saved.geometry
  {
    var settled :=
      if s.isMaximizationEvent then s.(isMaximizationEvent := false)
      else if s.mode == Maximized then s.(mode := Normal)
      else s;
    Dump(settled, live)
  }

  /** The 'closing' listener: snapshot, then hand the record to `store`,
      whether or not some other listener vetoes the close. */
  function AfterClosing(s: State, live: Geometry): (r: Reaction)
    ensures r.state.mode == s.mode && r.state.isMaximizationEvent == s.isMaximizationEvent
    ensures r.effects == [Store(r.state.saved)]
    ensures r.state.saved.mode == "maximized" <==> s.mode == Maximized
    ensures r.state.saved.mode == "normal" <==> s.mode != Maximized
    ensures r.state.saved.geometry == if s.mode == Normal then live else s.saved.geometry
  {
    var d := Dump(s, live);
    Reaction(d, [Store(d.saved)])
  }
}

=== FILE: layout_properties.dfy ===
/**
 Properties of the layout persistence that span several events or two
 sessions.
 */
module LayoutProperties {
  import opened Host
  import opened Layout

  /** A record written on closing restores, in the next session, the mode
      the window closed in (maximized or, for every other mode, normal),
      and a window closed in normal mode comes back at the geometry it had. */
  lemma SessionRoundTrip(s: State, closingLive: Geometry, nextLive: Geometry)
    ensures var next := Init(Some(AfterClosing(s, closingLive).state.saved), nextLive, false);
            && next.state.mode == (if s.mode == Maximized then Maximized else Normal)
            && (s.mode == Maximized ==> next.effects == [Maximize])
            && (s.mode == Normal ==>
                  next.effects == [ResizeTo(closingLive.width, closingLive.height), MoveTo(closingLive.x, closingLive.y)])
            && (s.mode != Normal && s.mode != Maximized ==> next.effects == RestoreEffects(s.saved))
  {
    var saved := AfterClosing(s, closingLive).state.saved;
    if s.mode == Maximized {
      assert saved.mode == "maximized";
    } else {
      assert saved.mode == "normal";
    }
  }

  /** The first settled resize after a maximize is the maximize itself: it
      keeps the maximized mode, and the record stored on closing keeps the
      geometry the window had before it was maximized. */
  lemma MaximizeKeepsNormalGeometry(s: State, resizeLive: Geometry, closingLive: Geometry)
    ensures var settled := AfterResizeSettled(AfterMaximize(s), resizeLive);
            && settled.mode == Maximized
            && !settled.isMaximizationEvent
            && AfterClosing(settled, closingLive).effects == [Store(WinState("maximized", s.saved.geometry))]
  {
  }

  /** A second settled resize of a maximized window (a user resizing it on
      macOS) means it is no longer maximized: the mode drops to normal and
      the live geometry is recorded. */
  lemma ResizeAfterMaximizeIsNormal(s: State, live1: Geometry, live2: Geometry)
    ensures var twice := AfterResizeSettled(AfterResizeSettled(AfterMaximize(s), live1), live2);
            && twice.mode == Normal
            && twice.saved == WinState("normal", live2)
  {
  }

  /** Maximizing a normal window and unmaximizing it again puts it back where
      the last snapshot in normal mode found it, whatever happened in between. */
  lemma UnmaximizeReturnsToSnapshot(s: State, snapshot: Geometry, resizeLive: Geometry)
    requires s.mode == Normal
    ensures var back := AfterUnmaximize(AfterResizeSettled(AfterMaximize(Dump(s, snapshot)), resizeLive));
            && back.state.mode == Normal
            && back.effects == [ResizeTo(snapshot.width, snapshot.height), MoveTo(snapshot.x, snapshot.y)]
  {
  }

  /** Minimizing never disturbs the recorded normal geometry, and closing a
      minimized window records it as normal. */
  lemma MinimizedClosesAsNormal(s: State, live: Geometry)
    ensures AfterClosing(AfterMinimize(s), live).effects == [Store(WinState("normal", s.saved.geometry))]
  {
  }

  /** Restoring a minimized window makes it normal again, so closing then
      stores "normal" with the live geometry, whatever mode it had before. */
  lemma RestoredClosesWithLiveGeometry(s: State, live: Geometry)
    ensures AfterClosing(AfterRestore(AfterMinimize(s)), live).effects == [Store(WinState("normal", live))]
  {
  }
}

=== FILE: window.dfy ===
/**
 The window decorator: the helpers it installs on one window, the
 cancellable 'closing' protocol layered over the host's 'close' event, the
 tray-icon toggle and the dispatch of host events to every installed
 listener. A window is an immutable record of what has been installed and
 of the state those listeners keep; every helper call and host event maps
 it to a new record plus the effects requested of the host.
 */
module Window {
  import opened Host
  import Layout

  /** A listener on the 'closing' event, in registration order. */
  datatype ClosingListener =
    | SaveLayout               // installed by persistLayout
    | MinimizeInstead          // installed by minimizeOnClose
    | External(vetoes: bool)   // application code: whether it calls the veto callback

  /** Whether a listener calls the veto callback it is handed. */
  function Vetoes(l: ClosingListener, dontMinimize: bool): bool {
    match l
    case SaveLayout => false
    case MinimizeInstead => !dontMinimize
    case External(v) => v
  }

  predicate AnyVeto(ls: seq<ClosingListener>, dontMinimize: bool) {
    exists i :: 0 <= i < |ls| && Vetoes(ls[i], dontMinimize)
  }

  /** The `menuItem` argument of attachTrayIcon. */
  datatype MenuItem = NoMenuItem | Checkbox | OtherItem

  /** One `toggle` closure: the tray icon it was registered on (an object
      identity), its `up` variable, its menu item's `checked` (None when the
      closure's menuItem is null) and whether it also listens to 'minimize'
      and 'restore'. */
  datatype Toggle = Toggle(tray: int, up: bool, checked: Option<bool>, tracksWindow: bool)

  /** What was clicked: a tray icon, or the menu item handed to the one
      attachTrayIcon call that got as far as setting `menuItem.click`. */
  datatype Source = TrayIcon(id: int) | MenuItemClick

  datatype Win = Win(
    closingEventAdded: bool,                  // __closingEventAdded
    closingListeners: seq<ClosingListener>,
    layout: Option<Layout.State>,             // present once persistLayout has run
    awaitingLoaded: bool,                     // the once('loaded') hook is pending
    resizeWatched: bool,                      // the resize handler is attached
    trayAttached: bool,                       // __trayIcon
    toggles: seq<Toggle>,
    hideOnMinimize: bool,                     // __hideOnMinimize
    minimizeOnClose: bool,                    // __minimizeOnClose
    dontMinimizeOnClose: bool,                // __dontMinimizeOnClose
    clearOnPrevented: bool)                   // a once('closingPrevented') clearer is pending

  /** A window nothing has been installed on. */
  const Plain := Win(false, [], None, false, false, false, [], false, false, false, false)

  /** The new window record, the effects in the order requested, and
      whether the call ended by throwing. */
  datatype Step = Step(win: Win, effects: seq<Effect>, threw: bool)

  /** Host events delivered to the window. */
  datatype Event =
    | OnMaximize
    | OnUnmaximize
    | OnMinimize
    | OnRestore
    | OnLoaded
    | OnResizeSettled(live: Geometry)   // the 500 ms debounce of 'resize' running out
    | OnClose(live: Geometry)           // the host's non-forced 'close' event
    | OnClick(source: Source)

  /** Calls made on the decorated window by application code. */
  datatype Call =
    | AddClosingEvent
    | PersistLayout(loaded: Option<WinState>, live: Geometry, hasReady: bool)
    | AttachTrayIcon(tray: int, item: MenuItem, currentlyVisible: bool)
    | HideOnMinimize
    | MinimizeOnClose
    | CloseWithoutMinimizing
    | OnClosing(vetoes: bool)           // win.on('closing', ...) by application code

  // ---------------------------------------------------------------------
  // Invariant

  predicate Mirrored(t: Toggle) {
    t.checked.None? || t.checked.value == t.up
  }

  function Tracking(ts: seq<Toggle>): nat {
    if ts == [] then 0 else (if ts[0].tracksWindow then 1 else 0) + Tracking(ts[1..])
  }

  /** Each helper's own listener appears at most once. */
  predicate HelpersOnce(ls: seq<ClosingListener>) {
    forall i, j :: 0 <= i < j < |ls| && ls[i] == ls[j] ==> ls[i].External?
  }

  /** What the marker flags and the listeners they guard keep in step. */
  predicate Valid(w: Win) {
    && (w.layout.Some? <==> SaveLayout in w.closingListeners)
    && (w.minimizeOnClose <==> MinimizeInstead in w.closingListeners)
    && (w.layout.Some? || w.minimizeOnClose ==> w.closingEventAdded)
    && HelpersOnce(w.closingListeners)
    && (w.layout.None? ==> !w.awaitingLoaded && !w.resizeWatched)
    && (w.layout.Some? ==> w.awaitingLoaded != w.resizeWatched)
    && w.dontMinimizeOnClose == w.clearOnPrevented
    && (forall k :: 0 <= k < |w.toggles| ==> Mirrored(w.toggles[k]))
    && Tracking(w.toggles) == (if w.trayAttached then 1 else 0)
  }

  // ---------------------------------------------------------------------
  // The closing protocol

  datatype Notified = Notified(prevented: bool, layout: Option<Layout.State>, effects: seq<Effect>)

  /** Emitting 'closing' to the listeners in order, each handed the veto
      callback. */
  function Notify(ls: seq<ClosingListener>, dontMinimize: bool, layout: Option<Layout.State>, live: Geometry): (r: Notified)
    ensures r.prevented <==> AnyVeto(ls, dontMinimize)
    ensures r.layout.Some? <==> layout.Some?
    ensures layout.Some? && SaveLayout in ls ==> r.layout == Some(Layout.Dump(layout.value, live))
    ensures SaveLayout !in ls ==> r.layout == layout
    ensures ForceClose !in r.effects && EmitClosingPrevented !in r.effects
    decreases |ls|
  {
    if ls == [] then Notified(false, layout, [])
    else
      var here := NotifyOne(ls[0], dontMinimize, layout, live);
      var rest := Notify(ls[1..], dontMinimize, here.layout, live);
      assert ls == [ls[0]] + ls[1..];
      var r := Notified(here.prevented || rest.prevented, rest.layout, here.effects + rest.effects);
      if layout.Some? then Layout.DumpIdempotent(layout.value, live); r else r
  }

  /** One listener handling 'closing'. */
  function NotifyOne(l: ClosingListener, dontMinimize: bool, layout: Option<Layout.State>, live: Geometry): (r: Notified)
    ensures r.prevented == Vetoes(l, dontMinimize)
    ensures r.layout.Some? <==> layout.Some?
    ensures layout.Some? && l == SaveLayout ==>
              r.layout == Some(Layout.Dump(layout.value, live)) && r.effects == [Store(r.layout.value.saved)]
    ensures l != SaveLayout ==> r.layout == layout
    ensures r.effects == [Minimize] <==> l == MinimizeInstead && !dontMinimize
    ensures l != SaveLayout ==> r.effects == [] || r.effects == [Minimize]
    ensures l == SaveLayout ==> forall k :: 0 <= k < |r.effects| ==> r.effects[k].Store?
  {
    match l
    case SaveLayout =>
      if layout.Some? then
        var c := Layout.AfterClosing(layout.value, live);
        Notified(false, Some(c.state), c.effects)
      else Notified(false, layout, [])
    case MinimizeInstead =>
      if dontMinimize then Notified(false, layout, []) else Notified(true, layout, [Minimize])
    case External(v) => Notified(v, layout, [])
  }

  /** The host's 'close' event. Without addClosingEvent nothing of this code
      listens to it and the host's own handling applies. */
  function Close(w: Win, live: Geometry): (r: Step)
    ensures !w.closingEventAdded ==> r == Step(w, [], false)
    ensures ForceClose in r.effects <==> w.closingEventAdded && !AnyVeto(w.closingListeners, w.dontMinimizeOnClose)
    ensures EmitClosingPrevented in r.effects <==> w.closingEventAdded && AnyVeto(w.closingListeners, w.dontMinimizeOnClose)
    ensures !r.threw
    ensures r.win == w.(layout := r.win.layout, dontMinimizeOnClose := r.win.dontMinimizeOnClose,
                        clearOnPrevented := r.win.clearOnPrevented)
    ensures w.closingEventAdded ==> r.win.layout == Notify(w.closingListeners, w.dontMinimizeOnClose, w.layout, live).layout
    ensures r.win.dontMinimizeOnClose <==>
              w.dontMinimizeOnClose && !(w.closingEventAdded && w.clearOnPrevented && AnyVeto(w.closingListeners, w.dontMinimizeOnClose))
    ensures r.win.clearOnPrevented <==>
              w.clearOnPrevented && !(w.closingEventAdded && AnyVeto(w.closingListeners, w.dontMinimizeOnClose))
    ensures w.closingEventAdded ==> |r.effects| > 0 && r.effects[|r.effects| - 1] in {ForceClose, EmitClosingPrevented}
  {
    if !w.closingEventAdded then Step(w, [], false)
    else
      var n := Notify(w.closingListeners, w.dontMinimizeOnClose, w.layout, live);
      var w' := w.(layout := n.layout);
      if !n.prevented then Step(w', n.effects + [ForceClose], false)
      else if w.clearOnPrevented then
        Step(w'.(dontMinimizeOnClose := false, clearOnPrevented := false), n.effects + [EmitClosingPrevented], false)
      else Step(w', n.effects + [EmitClosingPrevented], false)
  }

  // ---------------------------------------------------------------------
  // The tray toggle

  function Lowered(t: Toggle): (r: Toggle)
    ensures !r.up && r.tracksWindow == t.tracksWindow && r.checked.Some? == t.checked.Some?
    ensures r.tray == t.tray
    ensures Mirrored(r)
  {
    t.(up := false, checked := if t.checked.Some? then Some(false) else None)
  }

  function Raised(t: Toggle): (r: Toggle)
    ensures r.up && r.tracksWindow == t.tracksWindow && r.checked.Some? == t.checked.Some?
    ensures r.tray == t.tray
    ensures Mirrored(r)
  {
    t.(up := true, checked := if t.checked.Some? then Some(true) else None)
  }

  /** The 'minimize' (raise = false) or 'restore' (raise = true) event reaching
      the toggles that listen to the window. */
  function Track(ts: seq<Toggle>, raise: bool): (r: seq<Toggle>)
    ensures |r| == |ts|
    ensures forall k :: 0 <= k < |ts| && ts[k].tracksWindow ==> r[k].up == raise && Mirrored(r[k])
    ensures forall k :: 0 <= k < |ts| && !ts[k].tracksWindow ==> r[k] == ts[k]
    ensures forall k :: 0 <= k < |ts| ==> r[k].tracksWindow == ts[k].tracksWindow
    ensures forall k :: 0 <= k < |ts| ==> r[k].tray == ts[k].tray && r[k].checked.Some? == ts[k].checked.Some?
  {
    seq(|ts|, k requires 0 <= k < |ts| =>
      if !ts[k].tracksWindow then ts[k] else if raise then Raised(ts[k]) else Lowered(ts[k]))
  }

  /** What one toggle closure asks of the host. */
  function ToggleEffects(t: Toggle): seq<Effect> {
    if t.up then [Minimize] else [Show, Restore]
  }

  /** Whether a toggle runs on a click: the tray icon's 'click' reaches the
      toggles registered on that icon, and the menu item's click reaches the
      toggle that has the menu item. */
  predicate Runs(t: Toggle, s: Source) {
    match s
    case TrayIcon(id) => t.tray == id
    case MenuItemClick => t.checked.Some?
  }

  /** One run of a toggle closure: lowered if it believed the window up,
      raised otherwise. */
  function Flipped(t: Toggle): (r: Toggle)
    ensures r.up == !t.up && Mirrored(r)
    ensures r.tray == t.tray && r.tracksWindow == t.tracksWindow && r.checked.Some? == t.checked.Some?
  {
    if t.up then Lowered(t) else Raised(t)
  }

  datatype Clicked = Clicked(toggles: seq<Toggle>, effects: seq<Effect>)

  /** The toggles a click reaches, in registration order. */
  function Reached(ts: seq<Toggle>, s: Source): (r: seq<Toggle>)
    ensures |r| <= |ts|
    ensures forall t :: t in r <==> t in ts && Runs(t, s)
    ensures forall t :: multiset(r)[t] == (if Runs(t, s) then multiset(ts)[t] else 0)
    decreases |ts|
  {
    if ts == [] then []
    else
      assert ts == [ts[0]] + ts[1..];
      (if Runs(ts[0], s) then [ts[0]] else []) + Reached(ts[1..], s)
  }

  /** What a sequence of toggles asks of the host when each runs once, in order. */
  function Requests(ts: seq<Toggle>): (r: seq<Effect>)
    ensures |r| >= |ts|
    ensures Minimize in r <==> exists k :: 0 <= k < |ts| && ts[k].up
    decreases |ts|
  {
    if ts == [] then [] else ToggleEffects(ts[0]) + Requests(ts[1..])
  }

  /** A click, run by every toggle it reaches, in registration order: each
      minimizes the window if it believes it up, and shows and restores it
      otherwise, flipping its own belief. */
  function Click(ts: seq<Toggle>, s: Source): (r: Clicked)
    ensures |r.toggles| == |ts|
    ensures forall k :: 0 <= k < |ts| && Runs(ts[k], s) ==> r.toggles[k].up == !ts[k].up && Mirrored(r.toggles[k])
    ensures forall k :: 0 <= k < |ts| && !Runs(ts[k], s) ==> r.toggles[k] == ts[k]
    ensures forall k :: 0 <= k < |ts| ==>
              && r.toggles[k].tray == ts[k].tray
              && r.toggles[k].tracksWindow == ts[k].tracksWindow
              && r.toggles[k].checked.Some? == ts[k].checked.Some?
    ensures |ts| == 1 ==> r.effects == (if Runs(ts[0], s) then ToggleEffects(ts[0]) else [])
    ensures (forall k :: 0 <= k < |ts| ==> !Runs(ts[k], s)) ==> r.effects == []
    decreases |ts|
  {
    if ts == [] then Clicked([], [])
    else
      var rest := Click(ts[1..], s);
      if Runs(ts[0], s) then Clicked([Flipped(ts[0])] + rest.toggles, ToggleEffects(ts[0]) + rest.effects)
      else Clicked([ts[0]] + rest.toggles, rest.effects)
  }

  // ---------------------------------------------------------------------
  // Host events

  /** 'loaded': the once('loaded') hook persistLayout left pending attaches
      the resize handler and is gone. */
  function WindowLoaded(w: Win): (r: Win)
    ensures w.awaitingLoaded ==> !r.awaitingLoaded && r.resizeWatched
    ensures !w.awaitingLoaded ==> r == w
    ensures r.(awaitingLoaded := w.awaitingLoaded, resizeWatched := w.resizeWatched) == w
  {
    if w.awaitingLoaded then w.(awaitingLoaded := false, resizeWatched := true) else w
  }

  /** The debounced 'resize' reaching the layout listener, which exists only
      once 'loaded' has attached it. */
  function WindowResizeSettled(w: Win, live: Geometry): (r: Win)
    ensures w.resizeWatched && w.layout.Some? ==> r.layout == Some(Layout.AfterResizeSettled(w.layout.value, live))
    ensures !w.resizeWatched ==> r == w
    ensures r.(layout := w.layout) == w
  {
    if w.resizeWatched && w.layout.Some? then w.(layout := Some(Layout.AfterResizeSettled(w.layout.value, live)))
    else w
  }

  /** 'minimize' reaching the layout listener, the lowering of every toggle
      that follows the window, and the hide listener when installed. */
  function WindowMinimized(w: Win): (r: Step)
    ensures !r.threw
    ensures Hide in r.effects <==> w.hideOnMinimize
    ensures |r.effects| <= 1
    ensures r.win.layout.Some? <==> w.layout.Some?
    ensures w.layout.Some? ==> r.win.layout.value == Layout.AfterMinimize(w.layout.value)
    ensures r.win.toggles == Track(w.toggles, false)
    ensures r.win == w.(layout := r.win.layout, toggles := r.win.toggles)
  {
    var layout := if w.layout.Some? then Some(Layout.AfterMinimize(w.layout.value)) else None;
    var effects: seq<Effect> := if w.hideOnMinimize then [Hide] else [];
    Step(w.(layout := layout, toggles := Track(w.toggles, false)), effects, false)
  }

  /** One host event delivered to every listener the helpers installed. */
  function Apply(w: Win, e: Event): (r: Step)
    ensures !r.threw
  {
    match e
    case OnMaximize =>
      Step(w.(layout := if w.layout.Some? then Some(Layout.AfterMaximize(w.layout.value)) else None), [], false)
    case OnUnmaximize =>
      if w.layout.Some? then
        var u := Layout.AfterUnmaximize(w.layout.value);
        Step(w.(layout := Some(u.state)), u.effects, false)
      else Step(w, [], false)
    case OnMinimize => WindowMinimized(w)
    case OnRestore =>
      Step(w.(layout := if w.layout.Some? then Some(Layout.AfterRestore(w.layout.value)) else None,
              toggles := Track(w.toggles, true)), [], false)
    case OnLoaded => Step(WindowLoaded(w), [], false)
    case OnResizeSettled(live) => Step(WindowResizeSettled(w, live), [], false)
    case OnClose(live) => Close(w, live)
    case OnClick(source) =>
      var c := Click(w.toggles, source);
      Step(w.(toggles := c.toggles), c.effects, false)
  }

  // ---------------------------------------------------------------------
  // Helper calls

  function InstallClosingEvent(w: Win): (r: Win)
    ensures r.closingEventAdded
    ensures w.closingEventAdded ==> r == w
    ensures r.(closingEventAdded := w.closingEventAdded) == w
  {
    if w.closingEventAdded then w else w.(closingEventAdded := true)
  }

  /** persistLayout: the first call installs the closing event, runs the
      start-up of the layout machine, leaves the 'loaded' hook pending and
      adds the layout's 'closing' listener; later calls do nothing. */
  function InstallLayout(w: Win, loaded: Option<WinState>, live: Geometry, hasReady: bool): (r: Step)
    ensures !r.threw
    ensures w.layout.Some? ==> r == Step(w, [], false)
    ensures w.layout.None? ==>
              && r.effects == Layout.Init(loaded, live, hasReady).effects
              && r.win.layout == Some(Layout.Init(loaded, live, hasReady).state)
              && r.win.closingEventAdded
              && r.win.closingListeners == w.closingListeners + [SaveLayout]
              && r.win.awaitingLoaded && !r.win.resizeWatched
    ensures r.win.(layout := w.layout, closingEventAdded := w.closingEventAdded, closingListeners := w.closingListeners,
                   awaitingLoaded := w.awaitingLoaded, resizeWatched := w.resizeWatched) == w
  {
    if w.layout.Some? then Step(w, [], false)
    else
      var w1 := InstallClosingEvent(w);
      var init := Layout.Init(loaded, live, hasReady);
      Step(w1.(layout := Some(init.state), awaitingLoaded := true, resizeWatched := false,
               closingListeners := w1.closingListeners + [SaveLayout]),
           init.effects, false)
  }

  /** hideOnMinimize: sets the marker whose 'minimize' listener hides the
      window; the listener is added only the first time. */
  function InstallHideOnMinimize(w: Win): (r: Win)
    ensures r.hideOnMinimize
    ensures w.hideOnMinimize ==> r == w
    ensures r.(hideOnMinimize := w.hideOnMinimize) == w
  {
    w.(hideOnMinimize := true)
  }

  /** minimizeOnClose: the first call installs the closing event and adds
      the minimize-instead 'closing' listener; later calls do nothing. */
  function InstallMinimizeOnClose(w: Win): (r: Win)
    ensures r.minimizeOnClose
    ensures w.minimizeOnClose ==> r == w
    ensures !w.minimizeOnClose ==> r.closingEventAdded
    ensures !w.minimizeOnClose ==> r.closingListeners == w.closingListeners + [MinimizeInstead]
    ensures r.(minimizeOnClose := w.minimizeOnClose, closingEventAdded := w.closingEventAdded,
               closingListeners := w.closingListeners) == w
  {
    if w.minimizeOnClose then w
    else
      var w1 := InstallClosingEvent(w);
      w1.(minimizeOnClose := true, closingListeners := w1.closingListeners + [MinimizeInstead])
  }

  /** closeWithoutMinimizing: sets the dont-minimize flag, leaves a
      'closingPrevented' clearer pending and asks the host to close. */
  function StartCloseWithoutMinimizing(w: Win): (r: Step)
    ensures !r.threw && r.effects == [RequestClose]
    ensures r.win.dontMinimizeOnClose && r.win.clearOnPrevented
    ensures r.win.(dontMinimizeOnClose := w.dontMinimizeOnClose, clearOnPrevented := w.clearOnPrevented) == w
  {
    Step(w.(dontMinimizeOnClose := true, clearOnPrevented := true), [RequestClose], false)
  }

  /** attachTrayIcon as written: without a checkbox menu item the toggle is
      already registered on the tray icon when `menuItem.click = toggle`
      dereferences null and throws, so the guard flag is never set. */
  function AttachTray(w: Win, tray: int, item: MenuItem, currentlyVisible: bool): (r: Step)
    ensures r.effects == []
    ensures r.threw <==> !w.trayAttached && !item.Checkbox?
    ensures r.win.trayAttached <==> w.trayAttached || item.Checkbox?
    ensures w.trayAttached ==> r.win == w
    ensures !w.trayAttached ==>
              r.win.toggles == w.toggles + [Toggle(tray, currentlyVisible, if item.Checkbox? then Some(currentlyVisible) else None, item.Checkbox?)]
    ensures r.win.(trayAttached := w.trayAttached, toggles := w.toggles) == w
  {
    if w.trayAttached then Step(w, [], false)
    else if item.Checkbox? then
      Step(w.(trayAttached := true, toggles := w.toggles + [Toggle(tray, currentlyVisible, Some(currentlyVisible), true)]), [], false)
    else
      Step(w.(toggles := w.toggles + [Toggle(tray, currentlyVisible, None, false)]), [], true)
  }

  /** attachTrayIcon as its comment intends: a missing or non-checkbox menu
      item is left alone, and the toggle still follows the window. */
  function AttachTrayGuarded(w: Win, tray: int, item: MenuItem, currentlyVisible: bool): (r: Step)
    ensures r.effects == [] && !r.threw
    ensures r.win.trayAttached
    ensures w.trayAttached ==> r.win == w
    ensures !w.trayAttached ==>
              r.win.toggles == w.toggles + [Toggle(tray, currentlyVisible, if item.Checkbox? then Some(currentlyVisible) else None, true)]
    ensures r.win.(trayAttached := w.trayAttached, toggles := w.toggles) == w
  {
    if w.trayAttached then Step(w, [], false)
    else
      var checked := if item.Checkbox? then Some(currentlyVisible) else None;
      Step(w.(trayAttached := true, toggles := w.toggles + [Toggle(tray, currentlyVisible, checked, true)]), [], false)
  }

  /** win.on('closing', listener) by application code. */
  function AddClosingListener(w: Win, vetoes: bool): (r: Win)
    ensures r.closingListeners == w.closingListeners + [External(vetoes)]
    ensures r.(closingListeners := w.closingListeners) == w
  {
    w.(closingListeners := w.closingListeners + [External(vetoes)])
  }

  /** One helper call. */
  function Invoke(w: Win, c: Call): (r: Step)
    ensures r.threw ==> c.AttachTrayIcon?
  {
    match c
    case AddClosingEvent => Step(InstallClosingEvent(w), [], false)
    case PersistLayout(loaded, live, hasReady) => InstallLayout(w, loaded, live, hasReady)
    case AttachTrayIcon(tray, item, visible) => AttachTray(w, tray, item, visible)
    case HideOnMinimize => Step(InstallHideOnMinimize(w), [], false)
    case MinimizeOnClose => Step(InstallMinimizeOnClose(w), [], false)
    case CloseWithoutMinimizing => StartCloseWithoutMinimizing(w)
    case OnClosing(v) => Step(AddClosingListener(w, v), [], false)
  }
}

=== FILE: window_properties.dfy ===
/**
 Properties of the window decorator across calls and events: the marker
 flags keep the installed listeners in step, every installer is idempotent,
 the closing protocol closes exactly when nobody vetoes, and the tray toggle
 keeps its menu item's check mark equal to its belief about the window.
 */
module WindowProperties {
  import opened Host
  import Layout
  import opened Window

  lemma {:induction false} TrackingAppend(ts: seq<Toggle>, t: Toggle)
    ensures Tracking(ts + [t]) == Tracking(ts) + (if t.tracksWindow then 1 else 0)
    decreases |ts|
  {
    if ts == [] {
      assert ts + [t] == [t];
    } else {
      assert (ts + [t])[1..] == ts[1..] + [t];
      TrackingAppend(ts[1..], t);
    }
  }

  lemma {:induction false} TrackingSameFlags(a: seq<Toggle>, b: seq<Toggle>)
    requires |a| == |b|
    requires forall k :: 0 <= k < |a| ==> a[k].tracksWindow == b[k].tracksWindow
    ensures Tracking(a) == Tracking(b)
    decreases |a|
  {
    if a != [] {
      TrackingSameFlags(a[1..], b[1..]);
    }
  }

  lemma HelpersOnceAppend(ls: seq<ClosingListener>, l: ClosingListener)
    requires HelpersOnce(ls)
    requires l.External? || l !in ls
    ensures HelpersOnce(ls + [l])
  {
    var ls' := ls + [l];
    forall i, j | 0 <= i < j < |ls'| && ls'[i] == ls'[j]
      ensures ls'[i].External?
    {
      if j == |ls| {
        assert ls'[i] == ls[i];
      } else {
        assert ls'[i] == ls[i] && ls'[j] == ls[j];
      }
    }
  }

  /** Emitting 'closing' stores a snapshot whenever the layout listener is
      installed, whether or not anyone vetoes. */
  lemma {:induction false} NotifyStores(ls: seq<ClosingListener>, dont: bool, layout: Option<Layout.State>, live: Geometry)
    requires layout.Some? && SaveLayout in ls
    ensures Notify(ls, dont, layout, live).layout.Some?
    ensures Store(Notify(ls, dont, layout, live).layout.value.saved) in Notify(ls, dont, layout, live).effects
    decreases |ls|
  {
    var here := NotifyOne(ls[0], dont, layout, live);
    var rest := Notify(ls[1..], dont, here.layout, live);
    var r := Notify(ls, dont, layout, live);
    assert r.effects == here.effects + rest.effects;
    if ls[0] == SaveLayout {
      Layout.DumpIdempotent(layout.value, live);
      assert here.layout == Some(Layout.Dump(layout.value, live));
      assert r.layout == rest.layout == here.layout;
      assert r.effects[0] == Store(r.layout.value.saved);
    } else {
      assert ls == [ls[0]] + ls[1..];
      NotifyStores(ls[1..], dont, here.layout, live);
      assert r.layout == rest.layout;
    }
  }

  /** Emitting 'closing' requests a minimize exactly when the
      minimize-on-close listener is installed and not stood down. */
  lemma {:induction false} NotifyMinimizes(ls: seq<ClosingListener>, dont: bool, layout: Option<Layout.State>, live: Geometry)
    ensures Minimize in Notify(ls, dont, layout, live).effects <==> MinimizeInstead in ls && !dont
    decreases |ls|
  {
    if ls != [] {
      var here := NotifyOne(ls[0], dont, layout, live);
      NotifyMinimizes(ls[1..], dont, here.layout, live);
      assert ls == [ls[0]] + ls[1..];
      assert Minimize in here.effects <==> ls[0] == MinimizeInstead && !dont;
    }
  }

  /** A window nothing has been installed on satisfies the invariant. */
  lemma PlainIsValid()
    ensures Valid(Plain)
  {
  }

  lemma MinimizeKeepsValid(w: Win)
    requires Valid(w)
    ensures Valid(Apply(w, OnMinimize).win)
  {
    var ts := Track(w.toggles, false);
    TrackingSameFlags(w.toggles, ts);
    assert forall k :: 0 <= k < |ts| ==> Mirrored(ts[k]);
  }

  lemma RestoreKeepsValid(w: Win)
    requires Valid(w)
    ensures Valid(Apply(w, OnRestore).win)
  {
    var ts := Track(w.toggles, true);
    TrackingSameFlags(w.toggles, ts);
    assert forall k :: 0 <= k < |ts| ==> Mirrored(ts[k]);
  }

  lemma ClickKeepsValid(w: Win, s: Source)
    requires Valid(w)
    ensures Valid(Apply(w, OnClick(s)).win)
  {
    TrackingSameFlags(w.toggles, Click(w.toggles, s).toggles);
  }

  lemma CloseKeepsValid(w: Win, live: Geometry)
    requires Valid(w)
    ensures Valid(Apply(w, OnClose(live)).win)
  {
  }

  /** Every host event keeps the marker flags and listeners in step and
      keeps each menu check mark equal to its toggle's `up`. */
  lemma ApplyKeepsValid(w: Win, e: Event)
    requires Valid(w)
    ensures Valid(Apply(w, e).win)
  {
    match e
    case OnMinimize => MinimizeKeepsValid(w);
    case OnRestore => RestoreKeepsValid(w);
    case OnClick(s) => ClickKeepsValid(w, s);
    case OnClose(live) => CloseKeepsValid(w, live);
    case OnMaximize =>
    case OnUnmaximize =>
    case OnLoaded =>
    case OnResizeSettled(_) =>
  }

  lemma PersistLayoutKeepsValid(w: Win, loaded: Option<WinState>, live: Geometry, hasReady: bool)
    requires Valid(w)
    ensures Valid(Invoke(w, PersistLayout(loaded, live, hasReady)).win)
  {
    if w.layout.None? {
      HelpersOnceAppend(w.closingListeners, SaveLayout);
    }
  }

  lemma MinimizeOnCloseKeepsValid(w: Win)
    requires Valid(w)
    ensures Valid(Invoke(w, MinimizeOnClose).win)
  {
    if !w.minimizeOnClose {
      HelpersOnceAppend(w.closingListeners, MinimizeInstead);
    }
  }

  lemma OnClosingKeepsValid(w: Win, v: bool)
    requires Valid(w)
    ensures Valid(Invoke(w, OnClosing(v)).win)
  {
    HelpersOnceAppend(w.closingListeners, External(v));
  }

  lemma AttachTrayKeepsValid(w: Win, tray: int, item: MenuItem, visible: bool)
    requires Valid(w)
    ensures Valid(AttachTray(w, tray, item, visible).win)
  {
    if !w.trayAttached {
      var t := Toggle(tray, visible, if item.Checkbox? then Some(visible) else None, item.Checkbox?);
      TrackingAppend(w.toggles, t);
      var r := AttachTray(w, tray, item, visible).win;
      assert r.toggles == w.toggles + [t];
      forall k | 0 <= k < |r.toggles|
        ensures Mirrored(r.toggles[k])
      {
        if k < |w.toggles| {
          assert r.toggles[k] == w.toggles[k];
        }
      }
    }
  }

  /** Every helper call keeps the invariant too, whether or not it throws. */
  lemma InvokeKeepsValid(w: Win, c: Call)
    requires Valid(w)
    ensures Valid(Invoke(w, c).win)
  {
    match c
    case PersistLayout(loaded, live, hasReady) => PersistLayoutKeepsValid(w, loaded, live, hasReady);
    case MinimizeOnClose => MinimizeOnCloseKeepsValid(w);
    case OnClosing(v) => OnClosingKeepsValid(w, v);
    case AttachTrayIcon(tray, item, visible) => AttachTrayKeepsValid(w, tray, item, visible);
    case AddClosingEvent =>
    case HideOnMinimize =>
    case CloseWithoutMinimizing =>
  }

  predicate SameHelper(c: Call, c2: Call) {
    match c
    case AddClosingEvent => c2.AddClosingEvent?
    case PersistLayout(_, _, _) => c2.PersistLayout?
    case AttachTrayIcon(_, _, _) => c2.AttachTrayIcon?
    case HideOnMinimize => c2.HideOnMinimize?
    case MinimizeOnClose => c2.MinimizeOnClose?
    case _ => false
  }

  /** addClosingEvent, persistLayout, hideOnMinimize, minimizeOnClose and a
      successful attachTrayIcon install their listeners once: a repeat call,
      with any arguments, changes nothing and requests nothing. */
  lemma InstallersIdempotent(w: Win, c: Call, c2: Call)
    requires SameHelper(c, c2)
    requires c.AttachTrayIcon? ==> !Invoke(w, c).threw
    ensures Invoke(Invoke(w, c).win, c2) == Step(Invoke(w, c).win, [], false)
  {
  }

  /** The host's 'close' closes the window exactly when no 'closing' listener
      vetoed; otherwise 'closingPrevented' is emitted instead. The layout
      listener stores a snapshot on every attempt, vetoed or not, and the
      stored mode is never "minimized". */
  lemma CloseProtocol(w: Win, live: Geometry)
    requires Valid(w) && w.closingEventAdded
    ensures var r := Apply(w, OnClose(live));
            && (ForceClose in r.effects <==> !AnyVeto(w.closingListeners, w.dontMinimizeOnClose))
            && (EmitClosingPrevented in r.effects <==> AnyVeto(w.closingListeners, w.dontMinimizeOnClose))
            && (w.layout.Some? ==>
                  && r.win.layout.Some?
                  && Store(r.win.layout.value.saved) in r.effects
                  && (r.win.layout.value.saved.mode == "maximized" || r.win.layout.value.saved.mode == "normal"))
  {
    var n := Notify(w.closingListeners, w.dontMinimizeOnClose, w.layout, live);
    if w.layout.Some? {
      NotifyStores(w.closingListeners, w.dontMinimizeOnClose, w.layout, live);
    }
  }

  /** With minimizeOnClose installed, closing minimizes instead: the close
      is vetoed unless the dont-minimize flag is set. */
  lemma MinimizeOnCloseVetoes(w: Win, live: Geometry)
    requires Valid(w) && w.minimizeOnClose && !w.dontMinimizeOnClose
    ensures var r := Apply(w, OnClose(live));
            && Minimize in r.effects
            && ForceClose !in r.effects
            && EmitClosingPrevented in r.effects
  {
    var i :| 0 <= i < |w.closingListeners| && w.closingListeners[i] == MinimizeInstead;
    assert Vetoes(w.closingListeners[i], w.dontMinimizeOnClose);
    NotifyMinimizes(w.closingListeners, w.dontMinimizeOnClose, w.layout, live);
  }

  /** The minimize-on-close listener stays installed after the close it
      vetoed, so the next close minimizes and is prevented again. */
  lemma MinimizeOnCloseRepeats(w: Win, live1: Geometry, live2: Geometry)
    requires Valid(w) && w.minimizeOnClose && !w.dontMinimizeOnClose
    ensures var first := Apply(w, OnClose(live1));
            var second := Apply(first.win, OnClose(live2));
            && first.win.minimizeOnClose && first.win.closingListeners == w.closingListeners
            && Minimize in second.effects && ForceClose !in second.effects
  {
    MinimizeOnCloseVetoes(w, live1);
    CloseKeepsValid(w, live1);
    MinimizeOnCloseVetoes(Apply(w, OnClose(live1)).win, live2);
  }

  /** closeWithoutMinimizing sets the flag and asks the host to close; when
      the host's 'close' arrives the minimize-on-close listener stands aside,
      so the window closes unless application code vetoes, and the flag is
      cleared again exactly when the close was prevented. */
  lemma CloseWithoutMinimizingProtocol(w: Win, live: Geometry)
    requires Valid(w) && w.closingEventAdded
    ensures var s1 := Invoke(w, CloseWithoutMinimizing);
            var s2 := Apply(s1.win, OnClose(live));
            var vetoed := exists i :: 0 <= i < |w.closingListeners| && w.closingListeners[i] == External(true);
            && s1.effects == [RequestClose]
            && Minimize !in s2.effects
            && (ForceClose in s2.effects <==> !vetoed)
            && (s2.win.dontMinimizeOnClose <==> !vetoed)
  {
    var s1 := Invoke(w, CloseWithoutMinimizing);
    var ls := w.closingListeners;
    NotifyMinimizes(ls, true, w.layout, live);
    assert AnyVeto(ls, true) <==> exists i :: 0 <= i < |ls| && ls[i] == External(true) by {
      if AnyVeto(ls, true) {
        var i :| 0 <= i < |ls| && Vetoes(ls[i], true);
        assert ls[i] == External(true);
      }
      if exists i :: 0 <= i < |ls| && ls[i] == External(true) {
        var i :| 0 <= i < |ls| && ls[i] == External(true);
        assert Vetoes(ls[i], true);
      }
    }
  }

  /** Only hideOnMinimize makes a 'minimize' hide the window. */
  lemma MinimizeHidesIffInstalled(w: Win)
    ensures Hide in Apply(w, OnMinimize).effects <==> w.hideOnMinimize
  {
  }

  /** A click asks of the host exactly what the toggles it reaches ask, one
      after another in registration order. */
  lemma {:induction false} ClickRequests(ts: seq<Toggle>, s: Source)
    ensures Click(ts, s).effects == Requests(Reached(ts, s))
    decreases |ts|
  {
    if ts != [] {
      ClickRequests(ts[1..], s);
      var tail := Reached(ts[1..], s);
      if Runs(ts[0], s) {
        assert Reached(ts, s) == [ts[0]] + tail;
        assert ([ts[0]] + tail)[1..] == tail;
        assert Requests([ts[0]] + tail) == ToggleEffects(ts[0]) + Requests(tail);
      } else {
        assert Reached(ts, s) == tail;
      }
    }
  }

  /** Two identical clicks, on a tray icon or on the menu item, give back
      the window record they started from: every toggle they reach flips its
      `up` and check mark and flips them back. */
  lemma ClickTwice(w: Win, s: Source)
    requires Valid(w)
    ensures Apply(Apply(w, OnClick(s)).win, OnClick(s)).win == w
  {
    var once := Click(w.toggles, s).toggles;
    var twice := Click(once, s).toggles;
    forall k | 0 <= k < |w.toggles|
      ensures twice[k] == w.toggles[k]
    {
      var t := w.toggles[k];
      assert Mirrored(t);
      if Runs(t, s) {
        assert Runs(once[k], s);
        assert twice[k].up == t.up && Mirrored(twice[k]);
      }
    }
    assert twice == w.toggles;
  }

  /** With the tray attached and its toggle the only one (no toggle left
      behind by a failed attach), a click on its icon or its menu item
      minimizes a window believed up and shows and restores one believed
      down, and the menu item keeps its check mark equal to the new belief.
      A click anywhere else then does nothing. */
  lemma ClickToggles(w: Win, s: Source)
    requires Valid(w) && w.trayAttached && |w.toggles| == 1
    ensures var r := Apply(w, OnClick(s));
            if Runs(w.toggles[0], s) then
              && r.effects == (if w.toggles[0].up then [Minimize] else [Show, Restore])
              && r.win.toggles[0].up == !w.toggles[0].up
              && r.win.toggles[0].checked.Some? == w.toggles[0].checked.Some?
              && Mirrored(r.win.toggles[0])
            else r == Step(w, [], false)
  {
  }

  /** A resize is only seen once the window's 'loaded' event has fired after
      persistLayout; before that a settled resize changes nothing. */
  lemma ResizeNeedsLoaded(w: Win, loaded: Option<WinState>, live: Geometry, ready: bool, resized: Geometry)
    requires Valid(w) && w.layout.None?
    ensures var p := Invoke(w, PersistLayout(loaded, live, ready)).win;
            && Apply(p, OnResizeSettled(resized)).win == p
            && var l := Apply(p, OnLoaded).win;
               Apply(l, OnResizeSettled(resized)).win.layout
                 == Some(Layout.AfterResizeSettled(l.layout.value, resized))
  {
  }

  /** As written, attachTrayIcon without a checkbox menu item throws after
      registering its toggle, and since the guard flag was never set a second
      call on the same icon registers another: one click on the icon then
      minimizes the window twice, and there is no menu item to click. */
  lemma AttachTrayWithoutCheckboxThrows(tray: int)
    ensures var first := AttachTray(Plain, tray, NoMenuItem, true);
            var second := AttachTray(first.win, tray, NoMenuItem, true);
            && first.threw && second.threw
            && !second.win.trayAttached
            && |second.win.toggles| == 2
            && Apply(second.win, OnClick(TrayIcon(tray))).effects == [Minimize, Minimize]
            && Apply(second.win, OnClick(MenuItemClick)).effects == []
  {
    var second := AttachTray(AttachTray(Plain, tray, NoMenuItem, true).win, tray, NoMenuItem, true);
    assert second.win.toggles == [Toggle(tray, true, None, false), Toggle(tray, true, None, false)];
  }

  /** A failed attach on one icon followed by a successful one on another:
      each icon's click runs only its own toggle, the menu item runs the
      successful one, and the stray toggle stays on the first icon. */
  lemma StrayToggleStaysOnItsIcon(a: int, b: int)
    requires a != b
    ensures var first := AttachTray(Plain, a, NoMenuItem, true);
            var second := AttachTray(first.win, b, Checkbox, true);
            && first.threw && !second.threw && second.win.trayAttached
            && Apply(second.win, OnClick(TrayIcon(a))).effects == [Minimize]
            && Apply(second.win, OnClick(TrayIcon(b))).effects == [Minimize]
            && Apply(second.win, OnClick(MenuItemClick)).effects == [Minimize]
            && Apply(second.win, OnClick(MenuItemClick)).win.toggles[0] == second.win.toggles[0]
  {
    var second := AttachTray(AttachTray(Plain, a, NoMenuItem, true).win, b, Checkbox, true);
    assert second.win.toggles == [Toggle(a, true, None, false), Toggle(b, true, Some(true), true)];
  }

  /** The guarded attach never throws, keeps the invariant, makes the tray
      toggle follow the window, and is idempotent. */
  lemma AttachTrayGuardedSound(w: Win, tray: int, item: MenuItem, visible: bool, tray2: int, item2: MenuItem, visible2: bool)
    requires Valid(w)
    ensures var r := AttachTrayGuarded(w, tray, item, visible);
            && Valid(r.win)
            && Tracking(r.win.toggles) == 1
            && AttachTrayGuarded(r.win, tray2, item2, visible2) == Step(r.win, [], false)
  {
    if !w.trayAttached {
      var t := Toggle(tray, visible, if item.Checkbox? then Some(visible) else None, true);
      TrackingAppend(w.toggles, t);
      var r := AttachTrayGuarded(w, tray, item, visible).win;
      forall k | 0 <= k < |r.toggles|
        ensures Mirrored(r.toggles[k])
      {
        if k < |w.toggles| {
          assert r.toggles[k] == w.toggles[k];
        }
      }
    }
  }
}

=== FILE: wizard.dfy ===
/**
 The command-line wizard of make-app: a FIFO queue of questions, each with
 an answer handler that may reject the answer (stopping the run), record it
 in `spec` or `platformOptions`, and append further questions; when the
 queue runs dry the platform's `createApp` runs. Prompting is replaced by a
 list of answer lines and the platform and HOME are parameters.
 */
module Wizard {

  datatype Question =
    | AskName
    | AskUrl
    | AskIcon
    | AskTray
    | AskMinimizeToTray
    | AskStartHidden
    | AskMinimizeOnClose
    | AskPersist
    | AskCategories

  /** The prompt text written before reading the answer. */
  function Prompt(q: Question): string {
    match q
    case AskName => "Enter Name of Application: "
    case AskUrl => "Enter URL: "
    case AskIcon => "Enter path to icon (or enter for none): "
    case AskTray => "Do you wish to use a tray icon? [y/N]: "
    case AskMinimizeToTray => "Do you wish to minimize to the tray? [y/N]: "
    case AskStartHidden => "Do you wish to start hidden? [Y/n]: "
    case AskMinimizeOnClose => "Do you wish the close button to minimize the app instead? [y/N]: "
    case AskPersist => "Do you wish to persist the window appearance between sessions? [Y/n]: "
    case AskCategories => "What categories do you want the shortcut to display in? (semi-colon delimited list)"
  }

  /** The prompts written, in order, for the questions asked. */
  function Transcript(asked: seq<Question>): (r: seq<string>)
    ensures |r| == |asked|
    ensures forall i :: 0 <= i < |asked| ==> r[i] == Prompt(asked[i])
  {
    if asked == [] then [] else [Prompt(asked[0])] + Transcript(asked[1..])
  }

  /** The key a question's handler writes: in `spec`, or for the categories
      question in `platformOptions`. */
  function Key(q: Question): string {
    match q
    case AskName => "title"
    case AskUrl => "url"
    case AskIcon => "icon"
    case AskTray => "use-tray-icon"
    case AskMinimizeToTray => "minimize-to-tray"
    case AskStartHidden => "start-hidden"
    case AskMinimizeOnClose => "minimize-on-close"
    case AskPersist => "persist-window-appearance"
    case AskCategories => "categories"
  }

  /** Values stored in `spec`: strings and booleans. */
  datatype Value = Text(text: string) | Flag(flag: bool)

  datatype Collected = Collected(spec: map<string, Value>, platformOptions: map<string, string>)

  const Empty := Collected(map[], map[])

  /** A yes is exactly "y" or "yes": no trimming, no other case. */
  predicate IsYes(a: string) {
    a == "y" || a == "yes"
  }

  /** A no is exactly "n" or "no", likewise. */
  predicate IsNo(a: string) {
    a == "n" || a == "no"
  }

  /** The questions whose handlers refuse an empty answer. */
  predicate Required(q: Question) {
    q == AskName || q == AskUrl
  }

  predicate Rejects(q: Question, a: string) {
    Required(q) && a == ""
  }

  /** The two questions the tray question appends to the queue. */
  const FollowUps: seq<Question> := [AskMinimizeToTray, AskStartHidden]

  /** The queue before any answer: the fixed questions, then on Linux the
      categories question. */
  function InitialQueue(isLinux: bool): seq<Question> {
    [AskName, AskUrl, AskIcon, AskTray, AskMinimizeOnClose, AskPersist] + (if isLinux then [AskCategories] else [])
  }

  /** Whether a key holding `v` is present exactly when `present` says so. */
  predicate Flagged(m: map<string, Value>, k: string, present: bool, v: bool) {
    (k in m <==> present) && (k in m ==> m[k] == Flag(v))
  }

  /** What answering `q` with `a` leaves recorded under the question's key. */
  predicate Records(c: Collected, q: Question, a: string) {
    match q
    case AskName => "title" in c.spec && c.spec["title"] == Text(a)
    case AskUrl => "url" in c.spec && c.spec["url"] == Text(a)
    case AskIcon => ("icon" in c.spec <==> a != "") && ("icon" in c.spec ==> c.spec["icon"] == Text(a))
    case AskTray => Flagged(c.spec, "use-tray-icon", IsYes(a), true)
    case AskMinimizeToTray => Flagged(c.spec, "minimize-to-tray", IsYes(a), true)
    case AskStartHidden => Flagged(c.spec, "start-hidden", IsNo(a), false)
    case AskMinimizeOnClose => Flagged(c.spec, "minimize-on-close", IsYes(a), true)
    case AskPersist => Flagged(c.spec, "persist-window-appearance", !IsNo(a), true)
    case AskCategories => "categories" in c.platformOptions && c.platformOptions["categories"] == a
  }

  /** Nothing is recorded under the question's key yet. */
  predicate Absent(c: Collected, q: Question) {
    Key(q) !in c.spec && Key(q) !in c.platformOptions
  }

  /** Everything outside key `k` is as it was. */
  predicate OnlyKeyChanged(c: Collected, c': Collected, k: string) {
    c'.spec - {k} == c.spec - {k} && c'.platformOptions - {k} == c.platformOptions - {k}
  }

  datatype Handled =
    | Rejected(message: string)
    | Accepted(collected: Collected, followUps: seq<Question>)

  /** A question's `cb`: reject, or record the answer and name the questions
      to append to the queue. */
  function Handle(q: Question, a: string, c: Collected): (h: Handled)
    ensures h.Rejected? <==> Rejects(q, a)
    ensures h.Accepted? ==> h.followUps == (if q == AskTray then FollowUps else [])
    ensures h.Accepted? ==> OnlyKeyChanged(c, h.collected, Key(q))
    ensures h.Accepted? && Absent(c, q) ==> Records(h.collected, q, a)
  {
    match q
    case AskName =>
      if a == "" then Rejected("Application name required")
      else Accepted(c.(spec := c.spec["title" := Text(a)]), [])
    case AskUrl =>
      if a == "" then Rejected("URL required")
      else Accepted(c.(spec := c.spec["url" := Text(a)]), [])
    case AskIcon =>
      Accepted(if a != "" then c.(spec := c.spec["icon" := Text(a)]) else c, [])
    case AskTray =>
      Accepted(if IsYes(a) then c.(spec := c.spec["use-tray-icon" := Flag(true)]) else c, FollowUps)
    case AskMinimizeToTray =>
      Accepted(if IsYes(a) then c.(spec := c.spec["minimize-to-tray" := Flag(true)]) else c, [])
    case AskStartHidden =>
      Accepted(if IsNo(a) then c.(spec := c.spec["start-hidden" := Flag(false)]) else c, [])
    case AskMinimizeOnClose =>
      Accepted(if IsYes(a) then c.(spec := c.spec["minimize-on-close" := Flag(true)]) else c, [])
    case AskPersist =>
      Accepted(if !IsNo(a) then c.(spec := c.spec["persist-window-appearance" := Flag(true)]) else c, [])
    case AskCategories =>
      Accepted(c.(platformOptions := c.platformOptions["categories" := a]), [])
  }

  // ---------------------------------------------------------------------
  // createApp

  datatype Paths = Paths(specPath: string, shortcutPath: string)

  const ConfigDirName := "/.nw-ssb/"
  const ShortcutDirName := "/.local/share/applications/"

  /** `path.join(HOME, ".nw-ssb", title + ".json")` */
  function SpecPath(home: string, title: string): (p: string)
    ensures |p| == |home| + |ConfigDirName| + |title| + 5
    ensures p[..|home|] == home && p[|home|..|home| + |ConfigDirName|] == ConfigDirName
    ensures p[|home| + |ConfigDirName|..|p| - 5] == title && p[|p| - 5..] == ".json"
  {
    home + ConfigDirName + title + ".json"
  }

  /** `path.join(HOME, ".local", "share", "applications", title + ".desktop")` */
  function ShortcutPath(home: string, title: string): (p: string)
    ensures |p| == |home| + |ShortcutDirName| + |title| + 8
    ensures p[..|home|] == home && p[|home|..|home| + |ShortcutDirName|] == ShortcutDirName
    ensures p[|home| + |ShortcutDirName|..|p| - 8] == title && p[|p| - 8..] == ".desktop"
  {
    home + ShortcutDirName + title + ".desktop"
  }

  /** `spec.title` as JavaScript's string concatenation renders it. */
  function TitleOf(c: Collected): string {
    if "title" in c.spec && c.spec["title"].Text? then c.spec["title"].text else "undefined"
  }

  datatype Stop =
    | Failed(message: string)    // a handler rejected its answer
    | AwaitingAnswer             // the last question asked has no answer line
    | Created(paths: Paths)      // Linux createApp: the files it writes
    | Unsupported                // createApp on any other platform

  predicate Finished(s: Stop) {
    s.Created? || s.Unsupported?
  }

  function CreateApp(c: Collected, isLinux: bool, home: string): (s: Stop)
    ensures Finished(s)
    ensures s.Created? <==> isLinux
  {
    if isLinux then Created(Paths(SpecPath(home, TitleOf(c)), ShortcutPath(home, TitleOf(c))))
    else Unsupported
  }

  /** The prompts shown, what was collected, and how the run ended. */
  datatype Run = Run(asked: seq<Question>, collected: Collected, stop: Stop)

  /** `run`: shift the head of the queue, ask it, hand its answer to its
      handler, and go on with the queue plus whatever the handler appended. */
  function Drain(queue: seq<Question>, answers: seq<string>, c: Collected, isLinux: bool, home: string): (r: Run)
    ensures |r.asked| <= |queue| + |answers|
    ensures r.stop.AwaitingAnswer? ==> |r.asked| == |answers| + 1
    ensures r.stop.Failed? || Finished(r.stop) ==> |r.asked| <= |answers|
    ensures r.stop.Failed? ==> 0 < |r.asked| && Rejects(r.asked[|r.asked| - 1], answers[|r.asked| - 1])
    decreases |answers|
  {
    if queue == [] then Run([], c, CreateApp(c, isLinux, home))
    else if answers == [] then Run([queue[0]], c, AwaitingAnswer)
    else
      match Handle(queue[0], answers[0], c)
      case Rejected(m) => Run([queue[0]], c, Failed(m))
      case Accepted(c', more) =>
        var rest := Drain(queue[1..] + more, answers[1..], c', isLinux, home);
        Run([queue[0]] + rest.asked, rest.collected, rest.stop)
  }

  /** The whole wizard from an empty `spec`. */
  function RunWizard(answers: seq<string>, isLinux: bool, home: string): Run {
    Drain(InitialQueue(isLinux), answers, Empty, isLinux, home)
  }

  // ---------------------------------------------------------------------
  // The same run over a fixed schedule

  /** Every question the wizard can ask, in the order it asks them. */
  function Schedule(isLinux: bool): seq<Question> {
    InitialQueue(isLinux) + FollowUps
  }

  /** Asking a fixed list of questions in order, ignoring what handlers
      append: the reference the queue-driven run is measured against. */
  function Walk(schedule: seq<Question>, answers: seq<string>, c: Collected, isLinux: bool, home: string): (r: Run)
    ensures r.asked <= schedule
    ensures Finished(r.stop) ==> r.asked == schedule && r.stop == CreateApp(r.collected, isLinux, home)
    ensures |r.asked| <= |answers| + 1
    ensures r.stop.AwaitingAnswer? ==> |r.asked| == |answers| + 1
    ensures r.stop.Failed? ==> 0 < |r.asked| <= |answers| && Rejects(r.asked[|r.asked| - 1], answers[|r.asked| - 1])
    ensures forall i :: 0 <= i < |r.asked| - 1 ==> !Rejects(r.asked[i], answers[i])
    ensures Finished(r.stop) ==> |schedule| <= |answers| && forall i :: 0 <= i < |schedule| ==> !Rejects(schedule[i], answers[i])
    decreases |schedule|
  {
    if schedule == [] then Run([], c, CreateApp(c, isLinux, home))
    else if answers == [] then Run([schedule[0]], c, AwaitingAnswer)
    else
      match Handle(schedule[0], answers[0], c)
      case Rejected(m) => Run([schedule[0]], c, Failed(m))
      case Accepted(c', _) =>
        var rest := Walk(schedule[1..], answers[1..], c', isLinux, home);
        Run([schedule[0]] + rest.asked, rest.collected, rest.stop)
  }
}

=== FILE: wizard_properties.dfy ===
/**
 Properties of the wizard: the queue-driven run asks exactly the questions
 of a fixed schedule in order, only an empty name or URL stops it, each
 answer ends up under its own key, and the files createApp writes are
 named after HOME and the title alone.
 */
module WizardProperties {
  import opened Wizard

  predicate Distinct(qs: seq<Question>) {
    forall i, j :: 0 <= i < j < |qs| ==> qs[i] != qs[j]
  }

  /** How the live queue relates to the rest of the schedule: until the tray
      question has been answered its follow-ups are still to come. */
  predicate OnSchedule(queue: seq<Question>, rest: seq<Question>) {
    if AskTray in queue then Distinct(queue) && rest == queue + FollowUps
    else rest == queue
  }

  /** Draining the queue, with the follow-ups appended when the tray question
      is answered, asks the same questions and collects the same answers as
      walking the rest of the schedule. */
  lemma {:induction false} DrainFollowsSchedule(queue: seq<Question>, rest: seq<Question>, answers: seq<string>,
                                                c: Collected, isLinux: bool, home: string)
    requires OnSchedule(queue, rest)
    ensures Drain(queue, answers, c, isLinux, home) == Walk(rest, answers, c, isLinux, home)
    decreases |answers|
  {
    if queue == [] {
      assert rest == [];
    } else {
      assert rest != [] && rest[0] == queue[0];
      if answers != [] {
        match Handle(queue[0], answers[0], c)
        case Rejected(_) =>
        case Accepted(c', more) =>
          var next := queue[1..] + more;
          assert OnSchedule(next, rest[1..]) by {
            if AskTray in queue {
              if queue[0] == AskTray {
                assert AskTray !in queue[1..] by {
                  forall j | 0 <= j < |queue[1..]| ensures queue[1..][j] != AskTray {
                    assert queue[0] != queue[j + 1];
                  }
                }
                assert AskTray !in next;
              } else {
                assert more == [];
                assert next == queue[1..];
                assert AskTray in next;
              }
            } else {
              assert next == queue[1..];
            }
          }
          DrainFollowsSchedule(next, rest[1..], answers[1..], c', isLinux, home);
      }
    }
  }

  /** The wizard asks the questions of Schedule strictly in order. */
  lemma WizardFollowsSchedule(answers: seq<string>, isLinux: bool, home: string)
    ensures RunWizard(answers, isLinux, home) == Walk(Schedule(isLinux), answers, Empty, isLinux, home)
  {
    var q := InitialQueue(isLinux);
    assert AskTray in q by { assert q[3] == AskTray; }
    DrainFollowsSchedule(q, Schedule(isLinux), answers, Empty, isLinux, home);
  }

  /** The order of questions, for Linux and for every other platform. */
  lemma QuestionOrder(answers: seq<string>, isLinux: bool, home: string)
    ensures var r := RunWizard(answers, isLinux, home);
            && r.asked <= Schedule(isLinux)
            && (Finished(r.stop) ==> r.asked == Schedule(isLinux))
            && (isLinux ==> Schedule(isLinux) == [AskName, AskUrl, AskIcon, AskTray, AskMinimizeOnClose, AskPersist,
                                                  AskCategories, AskMinimizeToTray, AskStartHidden])
            && (!isLinux ==> Schedule(isLinux) == [AskName, AskUrl, AskIcon, AskTray, AskMinimizeOnClose, AskPersist,
                                                   AskMinimizeToTray, AskStartHidden])
  {
    WizardFollowsSchedule(answers, isLinux, home);
  }

  /** A schedule that opens with the name and URL questions and requires
      no other answer. */
  predicate NameUrlFirst(s: seq<Question>) {
    2 <= |s| && s[0] == AskName && s[1] == AskUrl && forall i :: 2 <= i < |s| ==> !Required(s[i])
  }

  lemma ScheduleNameUrlFirst(isLinux: bool)
    ensures NameUrlFirst(Schedule(isLinux))
  {
  }

  lemma WalkFailsOnlyOnNameOrUrl(s: seq<Question>, answers: seq<string>, c: Collected, isLinux: bool, home: string)
    requires NameUrlFirst(s)
    ensures var r := Walk(s, answers, c, isLinux, home);
            r.stop.Failed? ==> 1 <= |r.asked| <= 2 && (answers[0] == "" || (|r.asked| == 2 && answers[1] == ""))
  {
    var r := Walk(s, answers, c, isLinux, home);
    if r.stop.Failed? {
      var n := |r.asked|;
      assert r.asked[n - 1] == s[n - 1];
      assert n <= 2;
    }
  }

  lemma WalkFailsOnEmptyName(s: seq<Question>, answers: seq<string>, c: Collected, isLinux: bool, home: string)
    requires NameUrlFirst(s)
    requires 1 <= |answers| && answers[0] == ""
    ensures Walk(s, answers, c, isLinux, home).stop.Failed?
  {
  }

  lemma WalkFailsOnEmptyUrl(s: seq<Question>, answers: seq<string>, c: Collected, isLinux: bool, home: string)
    requires NameUrlFirst(s)
    requires 2 <= |answers| && answers[0] != "" && answers[1] == ""
    ensures Walk(s, answers, c, isLinux, home).stop.Failed?
  {
    var r := Walk(s, answers, c, isLinux, home);
    assert r.asked[0] == s[0];
  }

  lemma WalkFinishes(s: seq<Question>, answers: seq<string>, c: Collected, isLinux: bool, home: string)
    requires NameUrlFirst(s)
    requires |s| <= |answers| && answers[0] != "" && answers[1] != ""
    ensures Finished(Walk(s, answers, c, isLinux, home).stop)
  {
    var r := Walk(s, answers, c, isLinux, home);
    if r.stop.Failed? {
      WalkFailsOnlyOnNameOrUrl(s, answers, c, isLinux, home);
    }
  }

  /** Only an empty name or URL stops the wizard with an error; it then has
      asked at most those two questions and never reaches createApp. The
      wizard reaches createApp exactly when every scheduled question got an
      answer and the name and URL are non-empty. */
  lemma WizardOutcome(answers: seq<string>, isLinux: bool, home: string)
    ensures var r := RunWizard(answers, isLinux, home);
            && (r.stop.Failed? <==> (1 <= |answers| && answers[0] == "")
                                    || (2 <= |answers| && answers[0] != "" && answers[1] == ""))
            && (r.stop.Failed? ==> 1 <= |r.asked| <= 2)
            && (Finished(r.stop) <==> |Schedule(isLinux)| <= |answers| && answers[0] != "" && answers[1] != "")
  {
    WizardFollowsSchedule(answers, isLinux, home);
    var s := Schedule(isLinux);
    ScheduleNameUrlFirst(isLinux);
    WalkFailsOnlyOnNameOrUrl(s, answers, Empty, isLinux, home);
    if 1 <= |answers| && answers[0] == "" {
      WalkFailsOnEmptyName(s, answers, Empty, isLinux, home);
    }
    if 2 <= |answers| && answers[0] != "" && answers[1] == "" {
      WalkFailsOnEmptyUrl(s, answers, Empty, isLinux, home);
    }
    if |s| <= |answers| && answers[0] != "" && answers[1] != "" {
      WalkFinishes(s, answers, Empty, isLinux, home);
    }
  }

  /** Distinct questions write distinct keys. */
  lemma KeyInjective(q1: Question, q2: Question)
    requires q1 != q2
    ensures Key(q1) != Key(q2)
  {
  }

  /** What is recorded for a question only depends on that question's key. */
  lemma RecordsFrame(c: Collected, c': Collected, k: string, q: Question, a: string)
    requires OnlyKeyChanged(c, c', k)
    requires k != Key(q)
    ensures Records(c, q, a) <==> Records(c', q, a)
    ensures Absent(c, q) <==> Absent(c', q)
  {
    var kq := Key(q);
    assert kq in c'.spec - {k} <==> kq in c'.spec;
    assert kq in c.spec - {k} <==> kq in c.spec;
    assert kq in c'.platformOptions - {k} <==> kq in c'.platformOptions;
    assert kq in c.platformOptions - {k} <==> kq in c.platformOptions;
    if kq in c.spec {
      assert c'.spec[kq] == (c'.spec - {k})[kq] == (c.spec - {k})[kq] == c.spec[kq];
    }
    if kq in c.platformOptions {
      assert c'.platformOptions[kq] == (c'.platformOptions - {k})[kq] == (c.platformOptions - {k})[kq] == c.platformOptions[kq];
    }
  }

  /** Answers to questions outside the schedule stay recorded. */
  lemma {:induction false} WalkKeeps(schedule: seq<Question>, answers: seq<string>, c: Collected,
                                     isLinux: bool, home: string, q: Question, a: string)
    requires q !in schedule
    requires Records(c, q, a)
    ensures Records(Walk(schedule, answers, c, isLinux, home).collected, q, a)
    decreases |schedule|
  {
    if schedule != [] && answers != [] {
      match Handle(schedule[0], answers[0], c)
      case Rejected(_) =>
      case Accepted(c', _) =>
        KeyInjective(schedule[0], q);
        RecordsFrame(c, c', Key(schedule[0]), q, a);
        WalkKeeps(schedule[1..], answers[1..], c', isLinux, home, q, a);
    }
  }

  /** Walking a schedule of distinct, unanswered questions records every
      accepted answer under its question's key. */
  lemma {:induction false} WalkRecords(schedule: seq<Question>, answers: seq<string>, c: Collected,
                                       isLinux: bool, home: string)
    requires Distinct(schedule)
    requires forall s :: s in schedule ==> Absent(c, s)
    ensures var r := Walk(schedule, answers, c, isLinux, home);
            && (forall i :: 0 <= i < |r.asked| - 1 ==> Records(r.collected, schedule[i], answers[i]))
            && (Finished(r.stop) ==> forall i :: 0 <= i < |schedule| ==> Records(r.collected, schedule[i], answers[i]))
    decreases |schedule|
  {
    if schedule != [] && answers != [] {
      var s0 := schedule[0];
      match Handle(s0, answers[0], c)
      case Rejected(_) =>
      case Accepted(c', _) =>
        var tail := schedule[1..];
        assert Distinct(tail);
        assert s0 !in tail by {
          forall j | 0 <= j < |tail| ensures tail[j] != s0 {
            assert schedule[0] != schedule[j + 1];
          }
        }
        forall s | s in tail
          ensures Absent(c', s)
        {
          KeyInjective(s0, s);
          RecordsFrame(c, c', Key(s0), s, "");
        }
        WalkRecords(tail, answers[1..], c', isLinux, home);
        WalkKeeps(tail, answers[1..], c', isLinux, home, s0, answers[0]);
        var r := Walk(schedule, answers, c, isLinux, home);
        var rest := Walk(tail, answers[1..], c', isLinux, home);
        forall i | 0 <= i < |r.asked| - 1 || (Finished(r.stop) && 0 <= i < |schedule|)
          ensures Records(r.collected, schedule[i], answers[i])
        {
          if i > 0 {
            assert schedule[i] == tail[i - 1] && answers[i] == answers[1..][i - 1];
          }
        }
    }
  }

  /** A finished run has recorded every scheduled answer. */
  lemma FinishedRecordsAll(answers: seq<string>, isLinux: bool, home: string)
    requires |Schedule(isLinux)| <= |answers| && answers[0] != "" && answers[1] != ""
    ensures var r := RunWizard(answers, isLinux, home);
            && Finished(r.stop)
            && (forall i :: 0 <= i < |Schedule(isLinux)| ==> Records(r.collected, Schedule(isLinux)[i], answers[i]))
            && (!isLinux ==> Absent(r.collected, AskCategories))
  {
    WizardOutcome(answers, isLinux, home);
    WizardFollowsSchedule(answers, isLinux, home);
    ScheduleDistinct(isLinux);
    WalkRecords(Schedule(isLinux), answers, Empty, isLinux, home);
    if !isLinux {
      WalkKeepsAbsent(Schedule(isLinux), answers, Empty, isLinux, home, AskCategories);
    }
  }

  /** No question is scheduled twice, and the categories question only on Linux. */
  lemma ScheduleDistinct(isLinux: bool)
    ensures Distinct(Schedule(isLinux))
    ensures forall q :: q in Schedule(isLinux) ==> Absent(Empty, q)
    ensures !isLinux ==> AskCategories !in Schedule(isLinux)
  {
    var s := Schedule(isLinux);
    forall i, j | 0 <= i < j < |s|
      ensures s[i] != s[j]
    {
      assert s[i] != s[j] by {
        if isLinux {
          assert s == [AskName, AskUrl, AskIcon, AskTray, AskMinimizeOnClose, AskPersist, AskCategories, AskMinimizeToTray, AskStartHidden];
        } else {
          assert s == [AskName, AskUrl, AskIcon, AskTray, AskMinimizeOnClose, AskPersist, AskMinimizeToTray, AskStartHidden];
        }
      }
    }
  }

  /** Reading the per-key promises off the records of every scheduled answer. */
  lemma SpecOfRecords(c: Collected, answers: seq<string>, isLinux: bool)
    requires |Schedule(isLinux)| <= |answers|
    requires forall i :: 0 <= i < |Schedule(isLinux)| ==> Records(c, Schedule(isLinux)[i], answers[i])
    ensures var t := if isLinux then 7 else 6;
            && "title" in c.spec && c.spec["title"] == Text(answers[0])
            && "url" in c.spec && c.spec["url"] == Text(answers[1])
            && ("icon" in c.spec <==> answers[2] != "")
            && ("icon" in c.spec ==> c.spec["icon"] == Text(answers[2]))
            && Flagged(c.spec, "use-tray-icon", IsYes(answers[3]), true)
            && Flagged(c.spec, "minimize-on-close", IsYes(answers[4]), true)
            && Flagged(c.spec, "persist-window-appearance", !IsNo(answers[5]), true)
            && Flagged(c.spec, "minimize-to-tray", IsYes(answers[t]), true)
            && Flagged(c.spec, "start-hidden", IsNo(answers[t + 1]), false)
            && (isLinux ==> "categories" in c.platformOptions && c.platformOptions["categories"] == answers[6])
  {
    var s := Schedule(isLinux);
    var t := if isLinux then 7 else 6;
    assert Records(c, s[0], answers[0]);
    assert Records(c, s[1], answers[1]);
    assert Records(c, s[2], answers[2]);
    assert Records(c, s[3], answers[3]);
    assert Records(c, s[4], answers[4]);
    assert Records(c, s[5], answers[5]);
    assert Records(c, s[t], answers[t]);
    assert Records(c, s[t + 1], answers[t + 1]);
    if isLinux {
      assert Records(c, s[6], answers[6]);
    }
  }

  /** Per-key contents of a finished run, as the handlers promise them. The
      follow-up questions come last: after categories on Linux. */
  lemma FinishedSpec(answers: seq<string>, isLinux: bool, home: string)
    requires |Schedule(isLinux)| <= |answers| && answers[0] != "" && answers[1] != ""
    ensures var r := RunWizard(answers, isLinux, home);
            var c := r.collected;
            var t := if isLinux then 7 else 6;
            && Finished(r.stop)
            && "title" in c.spec && c.spec["title"] == Text(answers[0])
            && "url" in c.spec && c.spec["url"] == Text(answers[1])
            && ("icon" in c.spec <==> answers[2] != "")
            && ("icon" in c.spec ==> c.spec["icon"] == Text(answers[2]))
            && Flagged(c.spec, "use-tray-icon", IsYes(answers[3]), true)
            && Flagged(c.spec, "minimize-on-close", IsYes(answers[4]), true)
            && Flagged(c.spec, "persist-window-appearance", !IsNo(answers[5]), true)
            && Flagged(c.spec, "minimize-to-tray", IsYes(answers[t]), true)
            && Flagged(c.spec, "start-hidden", IsNo(answers[t + 1]), false)
            && (isLinux ==> "categories" in c.platformOptions && c.platformOptions["categories"] == answers[6])
            && (!isLinux ==> "categories" !in c.platformOptions && r.stop == Unsupported)
            && (isLinux ==> r.stop == Created(Paths(SpecPath(home, answers[0]), ShortcutPath(home, answers[0]))))
  {
    FinishedRecordsAll(answers, isLinux, home);
    var r := RunWizard(answers, isLinux, home);
    SpecOfRecords(r.collected, answers, isLinux);
    WizardFollowsSchedule(answers, isLinux, home);
  }

  /** A question outside the schedule leaves its key untouched. */
  lemma {:induction false} WalkKeepsAbsent(schedule: seq<Question>, answers: seq<string>, c: Collected,
                                           isLinux: bool, home: string, q: Question)
    requires q !in schedule
    requires Absent(c, q)
    ensures Absent(Walk(schedule, answers, c, isLinux, home).collected, q)
    decreases |schedule|
  {
    if schedule != [] && answers != [] {
      match Handle(schedule[0], answers[0], c)
      case Rejected(_) =>
      case Accepted(c', _) =>
        KeyInjective(schedule[0], q);
        RecordsFrame(c, c', Key(schedule[0]), q, "");
        WalkKeepsAbsent(schedule[1..], answers[1..], c', isLinux, home, q);
    }
  }

  /** Which questions are asked depends only on which answers are rejected. */
  lemma {:induction false} AskedDependsOnRejections(schedule: seq<Question>, a1: seq<string>, a2: seq<string>,
                                                    c1: Collected, c2: Collected, isLinux: bool, home: string)
    requires |a1| == |a2|
    requires forall i :: 0 <= i < |a1| && i < |schedule| ==> Rejects(schedule[i], a1[i]) == Rejects(schedule[i], a2[i])
    ensures Walk(schedule, a1, c1, isLinux, home).asked == Walk(schedule, a2, c2, isLinux, home).asked
    decreases |schedule|
  {
    if schedule != [] && a1 != [] {
      assert Rejects(schedule[0], a1[0]) == Rejects(schedule[0], a2[0]);
      var h1 := Handle(schedule[0], a1[0], c1);
      var h2 := Handle(schedule[0], a2[0], c2);
      if h1.Accepted? {
        forall i | 0 <= i < |a1[1..]| && i < |schedule[1..]|
          ensures Rejects(schedule[1..][i], a1[1..][i]) == Rejects(schedule[1..][i], a2[1..][i])
        {
          assert Rejects(schedule[i + 1], a1[i + 1]) == Rejects(schedule[i + 1], a2[i + 1]);
        }
        AskedDependsOnRejections(schedule[1..], a1[1..], a2[1..], h1.collected, h2.collected, isLinux, home);
      }
    }
  }

  /** The tray follow-ups are asked whatever the tray answer was: changing
      that answer changes none of the questions asked. */
  lemma TrayAnswerKeepsQuestions(answers: seq<string>, other: string, isLinux: bool, home: string)
    requires 3 < |answers|
    ensures RunWizard(answers[3 := other], isLinux, home).asked == RunWizard(answers, isLinux, home).asked
  {
    var s := Schedule(isLinux);
    var changed := answers[3 := other];
    ScheduleNameUrlFirst(isLinux);
    assert s[3] == AskTray;
    WizardFollowsSchedule(answers, isLinux, home);
    WizardFollowsSchedule(changed, isLinux, home);
    TrayAnswerNeverRejected(s, answers, other);
    AskedDependsOnRejections(s, answers, changed, Empty, Empty, isLinux, home);
  }

  lemma TrayAnswerNeverRejected(s: seq<Question>, answers: seq<string>, other: string)
    requires 3 < |answers| && 3 < |s| && s[3] == AskTray
    ensures forall i :: 0 <= i < |answers| && i < |s| ==> Rejects(s[i], answers[i]) == Rejects(s[i], answers[3 := other][i])
  {
  }

  /** The spec file and the shortcut each name exactly one title: two titles
      give the same path only if they are equal. */
  lemma PathsDetermineTitle(home: string, t1: string, t2: string)
    ensures SpecPath(home, t1) == SpecPath(home, t2) <==> t1 == t2
    ensures ShortcutPath(home, t1) == ShortcutPath(home, t2) <==> t1 == t2
  {
    var p1, p2 := SpecPath(home, t1), SpecPath(home, t2);
    if p1 == p2 {
      assert |t1| == |t2|;
      assert t1 == p1[|home| + |ConfigDirName|..|p1| - 5];
    }
    var s1, s2 := ShortcutPath(home, t1), ShortcutPath(home, t2);
    if s1 == s2 {
      assert |t1| == |t2|;
      assert t1 == s1[|home| + |ShortcutDirName|..|s1| - 8];
    }
  }

  /** The length of each prompt, all different. */
  function PromptLength(q: Question): nat {
    match q
    case AskName => 27
    case AskUrl => 11
    case AskIcon => 40
    case AskTray => 39
    case AskMinimizeToTray => 44
    case AskStartHidden => 36
    case AskMinimizeOnClose => 65
    case AskPersist => 70
    case AskCategories => 83
  }

  lemma PromptHasLength(q: Question)
    ensures |Prompt(q)| == PromptLength(q)
  {
  }

  /** No two questions share a prompt. */
  lemma PromptInjective(q1: Question, q2: Question)
    ensures Prompt(q1) == Prompt(q2) ==> q1 == q2
  {
    PromptHasLength(q1);
    PromptHasLength(q2);
  }

  /** The prompts written identify the questions asked: two runs that print
      the same transcript asked the same questions in the same order. */
  lemma TranscriptDeterminesQuestions(a1: seq<Question>, a2: seq<Question>)
    ensures Transcript(a1) == Transcript(a2) ==> a1 == a2
  {
    if Transcript(a1) == Transcript(a2) {
      forall i | 0 <= i < |a1|
        ensures a1[i] == a2[i]
      {
        PromptInjective(a1[i], a2[i]);
      }
    }
  }

  /** A finished Linux run writes these prompts, in this order. */
  lemma FinishedLinuxTranscript(answers: seq<string>, home: string)
    requires Finished(RunWizard(answers, true, home).stop)
    ensures Transcript(RunWizard(answers, true, home).asked) == [
              "Enter Name of Application: ",
              "Enter URL: ",
              "Enter path to icon (or enter for none): ",
              "Do you wish to use a tray icon? [y/N]: ",
              "Do you wish the close button to minimize the app instead? [y/N]: ",
              "Do you wish to persist the window appearance between sessions? [Y/n]: ",
              "What categories do you want the shortcut to display in? (semi-colon delimited list)",
              "Do you wish to minimize to the tray? [y/N]: ",
              "Do you wish to start hidden? [Y/n]: "]
  {
    QuestionOrder(answers, true, home);
  }
}
